=== FILE: README.md ===
# canvas-snap selection overlay, modelled in Dafny

This project models the core of `useCanvasSnap`, the React hook in
`src/components/hooks.ts` that lets a user drag a rectangle over a host
`<canvas>`. The hook does four things:

- It places a transparent overlay canvas (the "drawer layer") right after the host.
- It paints a mask, a bordered cut-out and a label while the pointer moves.
- On Enter, it reports the selection and an image cropped from the host.
- On Escape, it reports a cancel.

The project also models three helpers of the same package:

- `deepEqual` (`src/components/canvas-shooter/methods.ts`).
- `mergeSnapOptions` and `normalizeRectangle`, as their documentation comments in `dist/components/methods.d.ts` describe them. Their bodies are not part of this model.

Modules, in dependency order:

- `Optional`: `Option`, which stands for a present value or `undefined`.
- `Values`: JavaScript values (`null`, primitives, plain objects as string-keyed maps) and `deepEqual`. It has a recursive definition and a loop over the keys, like the source, and both are proved equal to structural equality.
- `Merge`: `mergeSnapOptions`, a recursive merge in which the source wins.
- `Geometry`: rectangles and the pointer mapping from client space to overlay pixels. The mapping is `(client - box origin) * pixels / displayed size`. Also `normalizeRectangle`.
- `Options`: the options type and `DEFAULT_OPTION`.
  - A top-level key has three states: missing, `undefined`, or given. Only a missing key lets the default through the spread `{ ...DEFAULT_OPTION, ...option }`.
  - Also here: the quality table and the JavaScript `||` fallbacks.
- `OptionValues`: the options written as plain values. It proves that the hook's resolution is a right-biased union of the top-level keys, and shows how that differs from `mergeSnapOptions`.
- `Strings`: `split` on one character and its inverse `join`, used to parse the label anchor.
- `Dom`: sibling nodes, the host canvas and the overlay layer.
- `Render`: the 2D-context calls of one mousemove as a list of commands: mask, cut-out, border and label with its placement.
- `Capture`: `captureRectAsImage` reduced to the calls made on the temporary canvas, its size and the quality factor.
- `Overlay`: the sibling-list surgery of the layer effect. It removes every `drawer-layer` canvas, then inserts one new layer after the host.
- `Session`: the hook as a state machine.
  - The state is the selection rectangle, the drawing flag, the host's siblings and the layer.
  - There is one function per event handler (mousedown, mousemove, mouseup, keydown) and one for the option effects.
  - `Run` folds a list of events.
- `Scenarios`: properties over runs of events, plus worked examples on a 500 by 300 host.

### How the model reads the JavaScript

- **Plain values.** The browser, React and the clock are not modelled. Each handler is a pure function from the state to the next state, plus:
  - the context calls it makes (`draws`),
  - the calls out of the hook (`Callback`, `CopyToClipboard`),
  - whether it calls `preventDefault`.
- **Parameters.** The displayed box (`getBoundingClientRect`) and the width `measureText` reports are inputs. The box must have a positive size, because with a zero-size box the source divides by zero.
- **Ignored canvas calls.** The canvas ignores a call whose argument is `undefined`, or `NaN` computed from `undefined`. An example is an unset `borderWidth` or `borderColor` when the caller's `rect` replaced the default. The model records no command for such calls. The canvas also ignores a `lineWidth` that is zero or negative and a `setLineDash` list with a negative entry, which the `dashed` and `dotted` patterns have for a negative border width. The model does record these calls, as `SetLineWidth(b)` with `b <= 0` and `SetLineDash` with negative entries, since the code makes them; a canvas leaves the previous width or pattern in force.
- **Truncated sizes.** Assigning `Math.abs(width)` to `canvas.width` keeps the integer part. The capture size is the floor of the absolute extent.

### Behaviour worth knowing

- **mousedown** moves the start point and keeps the previous width and height. A click without a drag followed by Enter therefore reports a selection of the old size at the clicked point (`Scenarios.ClickKeepsStaleExtents`). mousedown is handled at any time while the listeners are attached, also in the middle of a drag.
- **Enter** keeps the rectangle. Pressing Enter twice reports the same selection twice (`Scenarios.EnterTwiceReportsTwice`).
- **Escape** clears the whole overlay, leaving it without the base mask, and leaves the drawing flag as it was. A move after an Escape mid-drag therefore draws from the overlay's top-left corner (`Scenarios.EscapeMidDragKeepsDrawing`). Escape and every other key are handled only while the listeners are attached.
- **The capture** copies from the raw start point with absolute extents. After a drag up or left this is the selection mirrored about its start point (`Capture.SourceRegionIsSelectionOnlyForForwardDrags`, `Scenarios.ReverseDragExample`).
- **The background fill** always happens. It falls back to `#ffffff` when the host sets no inline background.
- **The layer effect** resets the rectangle and leaves the drawing flag as it was. When drawing is disabled, the old layer stays in the hook's state, detached from the page, and the listener effect clears it, with or without a mounted host.
- **Scale factors.** `src/components/hooks.ts` maps the pointer with the layer's pixel size over its displayed size and nothing else.
- **Label anchors.** The `position` type of `src/components/hooks.ts` lists six anchors: top or bottom, each with left, right or center. An unknown vertical half puts the label at y = 0, and any horizontal half other than left or right puts the box's centre one padding left of the middle between the drag's start and end x. The anchors are relative to the drag's start point `(x, y)` and end point `(x + w, y + h)`: "right" and "bottom" mean the end point, which is the selection's right or bottom edge only for a drag towards the bottom right.

## Model

| member | source | states |
|---|---|---|
| `Values.DeepEqual` | src/components/canvas-shooter/methods.ts:9-33 | `deepEqual(a, b)`, written as the source's recursion with the identity shortcut taken by value only for `null` and primitives (two objects always reach the key walk, since `===` on objects compares references), holds exactly when the two values are structurally equal (same primitive, or objects with the same keys and equal values), although it only walks the keys of `a` |
| `Values.DeepEqualLoop` | src/components/canvas-shooter/methods.ts:19-32 | The key-by-key loop, with its early exits on a missing key or an unequal value, returns the recursive definition's answer, which is structural equality: two objects with equal contents pass every key and leave by the final `return true` |
| `Values.EqualCountCoveringMapsEqual` | src/components/canvas-shooter/methods.ts:19-30 | The key-count test plus the one-way membership test suffice: two maps with equally many keys, every key of the first mapped to the same value in the second, are equal |
| `Values.DistinctNonObjectsUnequal` | src/components/canvas-shooter/methods.ts:11-16 | Distinct values at least one of which is `null` or a primitive are never deep-equal |
| `Values.KeyCountMismatchUnequal` | src/components/canvas-shooter/methods.ts:19-23 | Objects with different numbers of keys are never deep-equal |
| `Values.DeepEqualSymmetric` | src/components/canvas-shooter/methods.ts:9-33 | `deepEqual` is symmetric although the loop only walks the first object's keys |
| `Values.DeepEqualTransitive` | src/components/canvas-shooter/methods.ts:9-33 | `deepEqual` is transitive |
| `Merge.MergeSnapOptions` | dist/components/methods.d.ts:16-30 | The merge of two objects has the union of their keys; every path the source provides reads the source's value in the result; and nothing of the target is lost that the source does not replace, at every depth: a target key the source lacks keeps its value, and under a key that is an object on both sides the same holds recursively |
| `Merge.MergeIsMerge` | dist/components/methods.d.ts:16-30 | The merge meets the key-by-key description of a deep merge (`IsMerge`): for two objects, exactly the union of the keys; a key on both sides holds the merge of the two values; a key on one side only holds that side's value; when either side is not an object the result is the source |
| `Merge.MergeIsUnique` | dist/components/methods.d.ts:16-30 | Any value meeting that description is the merge, so the result has no keys, nested or not, besides those of target and source |
| `Merge.MergeOverwritesLeaves` | dist/components/methods.d.ts:22-23 | A primitive (or a value meeting a non-object) from the source replaces the target's value outright |
| `Merge.MergeKeepsNestedSiblings` | dist/components/methods.d.ts:17-22 | Under a key that is an object on both sides, the target's nested keys the source does not mention survive |
| `Merge.MergeEmptySource` | dist/components/methods.d.ts:19-20 | Merging an empty source gives a value deep-equal to the target |
| `Merge.MergeIntoEmpty` | dist/components/methods.d.ts:16-30 | Merging into an empty target reproduces the source |
| `Merge.MergeSelf` | dist/components/methods.d.ts:16-30 | Merging a value into itself gives it back |
| `Merge.MergeIdempotent` | dist/components/methods.d.ts:16-30 | Merging the same source twice is merging it once |
| `Geometry.ToSurface` | src/components/hooks.ts:212-219 | The pointer position on the overlay grid is the client offset from the box origin scaled by pixel size over displayed size |
| `Geometry.MappingRoundTrip` | src/components/hooks.ts:214-219 | On a non-empty surface, mapping a client point to pixels and back returns the same client point |
| `Geometry.MappingIsTranslationInvariant` | src/components/hooks.ts:228-238 | Pixel distances between two pointer positions depend only on their client distance, which is what makes `width = x - rectCoords.x` a drag length |
| `Geometry.NormalizeRectangle` | dist/components/methods.d.ts:31-43 | The result has non-negative extents equal to the absolute extents, starts at the smaller end on each axis and ends at the larger, and leaves an already non-negative rectangle unchanged |
| `Geometry.NormalizePreservesRegion` | dist/components/methods.d.ts:31-35 | A point lies in the normalized rectangle exactly when it lies in the span of the raw rectangle |
| `Geometry.NormalizeIdempotent` | dist/components/methods.d.ts:31-43 | Normalizing twice is normalizing once |
| `Options.ResolveOptions` | src/components/hooks.ts:79-90 | The resolved options have every top-level key; no options give `DEFAULT_OPTION`; a caller's `rect` or `helperText` replaces the default object whole, a missing one takes the default |
| `Options.ShallowSpreadDropsNestedDefaults` | src/components/hooks.ts:90 | A caller `rect` without `borderWidth` leaves the resolved options with no border width at all |
| `Options.ResolveIdempotent` | src/components/hooks.ts:90 | Resolving resolved options changes nothing |
| `Options.QualityValue` | src/components/hooks.ts:70-74 | Every tier's quality factor lies in (0, 1], and only `high` gives 1 |
| `Options.QualityValueStrictlyMonotone` | src/components/hooks.ts:70-74 | A higher tier has a strictly higher factor, and distinct tiers distinct factors |
| `Options.ImageQuality` | src/components/hooks.ts:191 | The encoder gets a quality factor exactly when a tier is set; it lies in (0, 1], and it is 1 exactly for `high` |
| `OptionValues.ResolveIsSpread` | src/components/hooks.ts:90 | Written as plain objects, the resolved options are exactly `{ ...DEFAULT_OPTION, ...option }`: the caller's keys, even `undefined` ones, over the default's |
| `OptionValues.SpreadVal` | src/components/hooks.ts:90 | An object spread has the keys of both objects, the second object's value wherever it has the key and the first's elsewhere |
| `OptionValues.SpreadDropsNestedDefault` | src/components/hooks.ts:90 | Whenever a caller's nested object omits a key the default's nested object has, the spread has no value at that path while the merge keeps the default's; the two results differ, and only the merge keeps the target |
| `OptionValues.SpreadLosesWhatMergeKeeps` | src/components/hooks.ts:90 | For a caller that only sets `rect.borderColor`, the hook's spread has no border width while `mergeSnapOptions` keeps the default width 1 beside the new colour, and the two results are not deep-equal |
| `Strings.Split` | src/components/hooks.ts:303 | `split('-')` gives at least one piece, no piece contains the separator, and joining the pieces gives the string back |
| `Strings.SplitJoin` | src/components/hooks.ts:303 | Splitting a join of separator-free pieces gives the pieces back |
| `Render.ParseAnchorOfPair` | src/components/hooks.ts:301-303 | An anchor `vertical-horizontal` destructures into its two halves |
| `Render.PlaceLabel` | src/components/hooks.ts:293-338 | The label box is the text size plus the padding on each side, and the text's right and left edges sit one padding inside it. `right` puts the box's right edge at the drag's end x (`x + w`) and `left` its left edge at the start x (`x`); any other horizontal half puts the box's centre one padding left of `x + w / 2`. `bottom` puts the text baseline at `y + h` plus two text heights and `top` at `y` minus one text height. For a drag up or left these are not the selection's right or bottom edges. An unknown vertical half leaves the label at y = 0 |
| `Render.LabelCommands` | src/components/hooks.ts:280-349 | A hidden label draws nothing. A shown label fills its background box and writes its text at the places `PlaceLabel` gives for the configured padding, font size and position, or their defaults. The text is the configured one, or the default text when none is set, so never an empty string. The label ends by resetting the dash pattern |
| `Render.LabelCommandsShape` | src/components/hooks.ts:280-349 | The label writes text exactly when `helperText` is set with `show` true, and never strokes |
| `Render.ZeroPaddingFallsBack` | src/components/hooks.ts:287-295 | The "or" fallbacks treat 0 as missing: a padding of 0 draws the label box 16 wider than the text (padding 8), and a font size of 0 draws at 16 |
| `Render.BorderCommands` | src/components/hooks.ts:254-277 | With a border width `b` set: the dash pattern of the border style comes first, then the border colour when one is set, then the line width `b` and the stroke of `(x - b/2, y - b/2, w + b, h + b)`, which lies outside the cut-out only for a drag towards the bottom right. Without a width nothing is stroked: a dashed or dotted style sets no dash pattern, since its pattern would be `NaN`; any other style resets the pattern to solid; a set colour is still applied |
| `Render.BorderCommandsShape` | src/components/hooks.ts:254-277 | The border strokes exactly when a border width is set, and never writes text |
| `Render.Redraw` | src/components/hooks.ts:247-349 | Every redraw clears and masks the whole layer first and cuts out the raw rectangle next. The border commands follow right after the cut-out, in their own order (dash pattern, colour, width, stroke), and the label commands fill the rest. So a shown label is drawn last, and the redraw then ends with its dash reset |
| `Render.RedrawShowsLabel` | src/components/hooks.ts:280-349 | A redraw writes text exactly when a label is configured to show |
| `Render.RedrawStrokesBorder` | src/components/hooks.ts:254-277 | A redraw strokes a border exactly when a border width `b` is set, and the stroked rectangle is `(x - b/2, y - b/2, w + b, h + b)` for the drag's start point `(x, y)` and signed extents `w`, `h` |
| `Render.BorderPlacement` | src/components/hooks.ts:271-277 | The stroke lies outside the cut-out for drags towards the bottom right, but on its inside for drags up or left by more than a border width |
| `Capture.CanvasSize` | src/components/hooks.ts:157-158 | The temporary canvas's size is the integer part of the absolute extent |
| `Capture.BackgroundOf` | src/components/hooks.ts:164-165 | The fill is the host's inline `backgroundColor` when set, else `background` when set, else white; never empty |
| `Capture.CaptureOps` | src/components/hooks.ts:161-188 | The temporary canvas is filled first; the copy of the source region to the origin happens under the grayscale filter exactly when grayscale is on; the filter is off at the end |
| `Capture.CaptureRectAsImage` | src/components/hooks.ts:149-193 | Without a host there is no image. Otherwise the image has the absolute extents' integer parts, the host's background underneath, the region at the raw start point copied under the configured filter, and the tier's quality factor |
| `Capture.SourceRegionIsSelectionOnlyForForwardDrags` | src/components/hooks.ts:153-183 | The copied region equals the normalized selection exactly when both extents are non-negative; after a drag left or up it starts at the far edge of the selection |
| `Overlay.RemoveLayers` | src/components/hooks.ts:111-115 | Every `drawer-layer` canvas goes, every other sibling stays |
| `Overlay.RemoveLayersAppend` | src/components/hooks.ts:111-115 | Removing layers distributes over concatenation, so the remaining siblings keep their order |
| `Overlay.RemoveLayersCounts` | src/components/hooks.ts:111-115 | Each non-layer sibling stays exactly as often as it was there |
| `Overlay.RemoveLayersIdempotent` | src/components/hooks.ts:111-115 | Removing layers twice is removing them once |
| `Overlay.IndexOf` | src/components/hooks.ts:142 | The first position of the host among its siblings, absent exactly when the host is not there |
| `Overlay.InsertAfter` | src/components/hooks.ts:142 | `after` puts the node right behind the anchor's first occurrence, and does nothing without the anchor |
| `Overlay.LayerNode` | src/components/hooks.ts:122-123 | The clone with class `drawer-layer` is a drawer layer |
| `Overlay.ReplaceLayer` | src/components/hooks.ts:111-142 | After the effect at most one layer is left; exactly one when enabled and the host is still there, placed right after the host; the other siblings are unchanged and in order; disabled leaves no layer |
| `Session.OnMouseDown` | src/components/hooks.ts:210-223 | While listening, the start point moves to the mapped pointer, the extents are kept and drawing starts; otherwise nothing happens |
| `Session.OnMouseMove` | src/components/hooks.ts:225-349 | While drawing, the start point stays and the far corner becomes the mapped pointer, and the layer is redrawn for the new rectangle; otherwise nothing happens |
| `Session.OnMouseUp` | src/components/hooks.ts:353-355 | While listening, drawing stops and the selection stays |
| `Session.OnKeyDown` | src/components/hooks.ts:358-399 | Any key is `preventDefault`ed exactly while listening. Enter with area reports the selection and its image, then the clipboard copy, and stops drawing with the selection kept. Enter with a zero extent does nothing. Escape clears the layer and the selection, keeps the drawing flag and reports the cancel snapshot. The callback and the clipboard copy each happen only when configured. Other keys change nothing |
| `Session.Dispatch` | src/components/hooks.ts:401-405 | No event touches the layer or the siblings, and without listeners no event does anything |
| `Session.OverlayEffect` | src/components/hooks.ts:101-208 | With a host, the selection resets and the drawing flag is kept. Enabled: a fresh layer of the host's size goes right after the host and is masked, and it is the only layer. Disabled: no layer is left on the page. Whether or not there is a host, disabling keeps the stale layer in the state and clears it. Without a host the layer effect changes no state |
| `Scenarios.CallbacksBoundedByKeys` | src/components/hooks.ts:358-399 | A run of events calls back at most once per Enter or Escape pressed |
| `Scenarios.RunWellFormed` | src/components/hooks.ts:366-397 | Every reported snapshot is a cancel with no image and no rectangle, or a submit with a rectangle of non-zero extents and, exactly when the host is mounted, its captured image; each clipboard copy carries such an image |
| `Session.Run` | src/components/hooks.ts:196-208 | Over any run of events the layer and the host's siblings stay as they were; without a layer, or with drawing disabled, no run of events changes anything or calls out |
| `Scenarios.DragSelectsBetweenPointers` | src/components/hooks.ts:210-245 | A press then a move selects the rectangle from the first mapped pointer to the second, and normalized it spans the two |
| `Scenarios.DragEndMapsBack` | src/components/hooks.ts:228-238 | The far corner of a dragged selection maps back to the client point of the last move |
| `Scenarios.EnterTwiceReportsTwice` | src/components/hooks.ts:362-382 | Enter keeps the selection, so a second Enter reports the same snapshot again |
| `Scenarios.EscapeMidDragKeepsDrawing` | src/components/hooks.ts:385-398 | After Escape mid-drag the next move draws from the overlay's origin to the pointer |
| `Scenarios.ClickKeepsStaleExtents` | src/components/hooks.ts:221 | A click without a drag, then Enter, reports the old extents at the clicked point |
| `Scenarios.SubmitOrder` | src/components/hooks.ts:373-379 | The callback comes first and the clipboard copy gets the same image |
| `Scenarios.MountExample` | src/components/hooks.ts:117-142 | Mounting with drawing enabled on a 500 by 300 host puts exactly one layer right after the host, paints the default mask on it and attaches the listeners |
| `Scenarios.ForwardDragExample` | src/components/hooks.ts:210-355 | On that host, the drag (120, 80) to (220, 180), then release, leaves the selection `{x: 120, y: 80, width: 100, height: 100}` with drawing stopped |
| `Scenarios.SubmitExample` | src/components/hooks.ts:358-382 | Enter on that selection reports it with a 100 by 100 image, filled white and copied from (120, 80) at quality 1, and then copies the same image to the clipboard |
| `Scenarios.ReverseDragExample` | src/components/hooks.ts:225-245 | The reverse drag leaves `{220, 180, -100, -100}`; it normalizes to `{120, 80, 100, 100}`, but the copy is taken from the region starting at (220, 180) |
| `Scenarios.VerticalDragReportsNothing` | src/components/hooks.ts:364 | A purely vertical drag has no width, and Enter then reports nothing |
| `Scenarios.EscapeExample` | src/components/hooks.ts:385-398 | Escape reports exactly `{isCanceled: true, capturedImage: null, rectCoords: null}` and clears the layer |
| `Scenarios.DisableExample` | src/components/hooks.ts:101-208 | Disabling drawing removes the layer from the page, keeps it in the state, clears it and detaches the listeners |
| `Scenarios.ReenableExample` | src/components/hooks.ts:101-145 | Re-enabling inserts exactly one new layer right after the host |

## Left out

- `dist/index.js`, the bundled build, is not part of this model. Its hook differs from the source, for example by dividing by the device pixel ratio.
- Pixels and image encoding are not modelled. An `Image` records its size, the calls made on the temporary canvas and the quality argument. Also, `toDataURL('image/png', q)` ignores `q` for PNG, so the quality factor does not change the image.
- The React lifecycle is not modelled:
  - when effects run (their dependency lists),
  - the batching of state updates,
  - stale closures between a state update and the next render,
  - removing listeners on cleanup.
  Each event sees the state left by all earlier events. `OverlayEffect` is one run of the effects. When React runs it is outside the model.
- The `await` on the clipboard copy is not modelled. The drawing flag is lowered in the same step as the copy.
- `copyBase64ImageToClipboard` and `goToPage` are external calls. The clipboard copy is an effect that records its argument.
- `src/components/Canvas.tsx`, the wrapper component, is not part of this model.
- JavaScript numbers are reals: no `NaN`, no infinities, no rounding. A zero-size displayed box is excluded by a precondition.
- Canvas sizes of 2^31 pixels or more are not modelled.
- `Values.DeepEqual`: values carry no object identity, so two objects with equal contents cannot be told apart as references. `===` is taken by value for `null` and primitives only; two objects always go through the key walk. This gives the same answer, because an object is deep-equal to itself.
- `Values` has no arrays, functions, `Date`s or other non-plain objects. The options never hold them.
- Within `rect` and `helperText`, a missing field and an `undefined` field are not told apart. Both read as `undefined`, because those fields are only read, never spread.
- The layer's cursor and inline style (`position`, `inset`, `zIndex`, `background`) are presentational and not modelled.
- `helperText.textHeight` is declared in the type but never read by the hook, so it is not modelled.
- The label text width is an input (`Env.textWidth`), not a font measurement.

=== FILE: capture.dfy ===
/** `captureRectAsImage` (src/components/hooks.ts:149-193) reduced to its
    geometry: the size of the temporary canvas, its background fill, the
    grayscale filter around the copy, the copied source rectangle and the
    quality factor handed to the PNG encoder. The pixels and the data-URL
    encoding themselves are not modelled; an `Image` records how it was made. */
module Capture {
  import opened Optional
  import opened Options
  import opened Geometry
  import opened Dom

  datatype CaptureOp =
    | FillBackground(color: string, w: nat, h: nat)
    | SetFilter(filter: string)
    | CopyRegion(sx: real, sy: real, sw: real, sh: real, dx: real, dy: real, dw: real, dh: real)

  /** The captured image: the temporary canvas's size, the calls made on it,
      and the quality argument of `toDataURL('image/png', quality)`. */
  datatype Image = Image(width: nat, height: nat, ops: seq<CaptureOp>, quality: Option<real>)

  const Grayscale: string := "grayscale(100%)"
  const NoFilter: string := "none"
  const DefaultBackground: string := "#ffffff"

  /** Assigning a non-negative number to `canvas.width` or `canvas.height`
      keeps its integer part. */
  function CanvasSize(v: real): (n: nat)
    requires v >= 0.0
    ensures n as real <= v < n as real + 1.0
  {
    v.Floor
  }

  /** `backgroundColor || background || '#ffffff'` of the host's inline style. */
  function BackgroundOf(host: Host): (c: string)
    ensures c != ""
    ensures c == host.backgroundColor || c == host.background || c == DefaultBackground
    ensures host.backgroundColor != "" ==> c == host.backgroundColor
    ensures host.backgroundColor == "" && host.background != "" ==> c == host.background
    ensures host.backgroundColor == "" && host.background == "" ==> c == DefaultBackground
  {
    if host.backgroundColor != "" then host.backgroundColor
    else if host.background != "" then host.background
    else DefaultBackground
  }

  /** The filter in effect after the first `n` calls; a fresh context has none. */
  function FilterAfter(ops: seq<CaptureOp>, n: nat): string
    requires n <= |ops|
  {
    if n == 0 then NoFilter
    else if ops[n - 1].SetFilter? then ops[n - 1].filter
    else FilterAfter(ops, n - 1)
  }

  /** The calls on the temporary canvas: fill, optional grayscale on, copy,
      optional grayscale off. */
  function CaptureOps(rect: Rect, width: nat, height: nat, background: string, grayscale: bool): (ops: seq<CaptureOp>)
    ensures |ops| >= 2 && ops[0] == FillBackground(background, width, height)
    ensures var i := if grayscale then 2 else 1;
      && i < |ops|
      && ops[i] == CopyRegion(rect.x, rect.y, Abs(rect.width), Abs(rect.height), 0.0, 0.0, Abs(rect.width), Abs(rect.height))
      && FilterAfter(ops, i) == (if grayscale then Grayscale else NoFilter)
    ensures FilterAfter(ops, |ops|) == NoFilter
  {
    var copy := CopyRegion(rect.x, rect.y, Abs(rect.width), Abs(rect.height), 0.0, 0.0, Abs(rect.width), Abs(rect.height));
    if grayscale then
      [FillBackground(background, width, height), SetFilter(Grayscale), copy, SetFilter(NoFilter)]
    else
      [FillBackground(background, width, height), copy]
  }

  /** No host canvas, no image; otherwise a canvas of the absolute extents
      (integer parts), filled with the host's background, with the region
      starting at the raw start point copied to its origin, under a grayscale
      filter exactly when `isGrayscale` is set. */
  function CaptureRectAsImage(rect: Rect, host: Option<Host>, opts: DrawingOptions): (img: Option<Image>)
    ensures img.Some? <==> host.Some?
    ensures img.Some? ==>
      && img.value.width as real <= Abs(rect.width) < img.value.width as real + 1.0
      && img.value.height as real <= Abs(rect.height) < img.value.height as real + 1.0
      && |img.value.ops| >= 2
      && img.value.ops[0] == FillBackground(BackgroundOf(host.value), img.value.width, img.value.height)
      && img.value.quality == ImageQuality(opts.imageQuality)
    ensures img.Some? ==>
      exists i | 0 <= i < |img.value.ops| ::
        && img.value.ops[i] == CopyRegion(rect.x, rect.y, Abs(rect.width), Abs(rect.height), 0.0, 0.0, Abs(rect.width), Abs(rect.height))
        && FilterAfter(img.value.ops, i) == (if IsSet(opts.isGrayscale) then Grayscale else NoFilter)
    ensures img.Some? ==> FilterAfter(img.value.ops, |img.value.ops|) == NoFilter
  {
    if host.None? then None
    else
      var width := CanvasSize(Abs(rect.width));
      var height := CanvasSize(Abs(rect.height));
      var ops := CaptureOps(rect, width, height, BackgroundOf(host.value), IsSet(opts.isGrayscale));
      var i := if IsSet(opts.isGrayscale) then 2 else 1;
      assert ops[i] == CopyRegion(rect.x, rect.y, Abs(rect.width), Abs(rect.height), 0.0, 0.0, Abs(rect.width), Abs(rect.height));
      Some(Image(width, height, ops, ImageQuality(opts.imageQuality)))
  }

  /** The source region of the copy, as a rectangle. */
  function SourceRegion(rect: Rect): Rect
  {
    Rect(rect.x, rect.y, Abs(rect.width), Abs(rect.height))
  }

  /** The copied region is the selected one exactly when the drag went
      towards the bottom right (or had zero extent). After a drag up or to
      the left the copy starts at the raw start point and extends away from
      the selection, so it is the selection mirrored about its start point. */
  lemma SourceRegionIsSelectionOnlyForForwardDrags(rect: Rect)
    ensures SourceRegion(rect) == NormalizeRectangle(rect) <==> rect.width >= 0.0 && rect.height >= 0.0
    ensures rect.width < 0.0 ==> SourceRegion(rect).x == NormalizeRectangle(rect).x + NormalizeRectangle(rect).width
    ensures rect.height < 0.0 ==> SourceRegion(rect).y == NormalizeRectangle(rect).y + NormalizeRectangle(rect).height
  {
  }
}

=== FILE: dom.dfy ===
/** The parts of the page the hook touches, reduced to what its logic reads. */
module Dom {

  /** An element among the host canvas's siblings: an identity, its tag name
      and its class list. */
  datatype Node = Node(id: nat, tag: string, classes: set<string>)

  /** The class that marks an overlay layer created by the hook. */
  const LayerClass: string := "drawer-layer"

  /** A sibling the overlay effect removes: a canvas carrying the layer class. */
  predicate IsDrawerLayer(n: Node)
  {
    n.tag == "CANVAS" && LayerClass in n.classes
  }

  /** The host canvas: its element, its pixel size (the `width` and `height`
      attributes) and the two inline style properties the capture reads. An
      unset style property reads as the empty string. */
  datatype Host = Host(node: Node, width: nat, height: nat, backgroundColor: string, background: string)

  /** The overlay layer: a clone of the host, so it has the host's pixel size
      at the time it was made. */
  datatype Layer = Layer(node: Node, width: nat, height: nat)
}

=== FILE: geometry.dfy ===
/** Rectangles in overlay pixel space, the pointer mapping of the mouse
    handlers in src/components/hooks.ts, and `normalizeRectangle` as its
    documentation comment in dist/components/methods.d.ts describes it. */
module Geometry {

  /** A selection rectangle. `width` and `height` carry the drag direction and
      may be negative while (and after) the pointer moves up or left. */
  datatype Rect = Rect(x: real, y: real, width: real, height: real)

  /** The rectangle every (re)enabled overlay and every cancel starts from. */
  const ZeroRect: Rect := Rect(0.0, 0.0, 0.0, 0.0)

  /** A bounding box as `getBoundingClientRect` reports it, in CSS pixels. */
  datatype Box = Box(left: real, top: real, width: real, height: real)

  datatype Point = Point(x: real, y: real)

  function Abs(v: real): (r: real)
    ensures r >= 0.0 && (r == v || r == -v)
  {
    if v < 0.0 then -v else v
  }

  function Min(a: real, b: real): real { if a <= b then a else b }

  function Max(a: real, b: real): real { if a <= b then b else a }

  /** Map a client-space pointer position onto the overlay's pixel grid:
      subtract the box origin and scale by pixel size over displayed size, the
      same way in the mousedown and mousemove handlers. */
  function ToSurface(clientX: real, clientY: real, box: Box, pixelWidth: nat, pixelHeight: nat): (p: Point)
    requires box.width > 0.0 && box.height > 0.0
    ensures p.x * box.width == (clientX - box.left) * pixelWidth as real
    ensures p.y * box.height == (clientY - box.top) * pixelHeight as real
  {
    Point((clientX - box.left) * (pixelWidth as real / box.width),
          (clientY - box.top) * (pixelHeight as real / box.height))
  }

  /** The inverse mapping, from overlay pixels back to client space. */
  function ToClient(p: Point, box: Box, pixelWidth: nat, pixelHeight: nat): (c: Point)
    requires pixelWidth > 0 && pixelHeight > 0
  {
    Point(box.left + p.x * (box.width / pixelWidth as real),
          box.top + p.y * (box.height / pixelHeight as real))
  }

  /** The mapping is invertible for a non-empty surface: mapping a client
      point and mapping it back returns the same point. */
  lemma MappingRoundTrip(clientX: real, clientY: real, box: Box, pixelWidth: nat, pixelHeight: nat)
    requires box.width > 0.0 && box.height > 0.0
    requires pixelWidth > 0 && pixelHeight > 0
    ensures ToClient(ToSurface(clientX, clientY, box, pixelWidth, pixelHeight), box, pixelWidth, pixelHeight)
      == Point(clientX, clientY)
  {
    var w, h := pixelWidth as real, pixelHeight as real;
    var p := ToSurface(clientX, clientY, box, pixelWidth, pixelHeight);
    calc {
      p.x * (box.width / w);
      (clientX - box.left) * (w / box.width) * (box.width / w);
      (clientX - box.left) * ((w / box.width) * (box.width / w));
      { assert (w / box.width) * (box.width / w) == 1.0; }
      clientX - box.left;
    }
    calc {
      p.y * (box.height / h);
      (clientY - box.top) * (h / box.height) * (box.height / h);
      (clientY - box.top) * ((h / box.height) * (box.height / h));
      { assert (h / box.height) * (box.height / h) == 1.0; }
      clientY - box.top;
    }
  }

  /** The mapping is linear: the pixel-space distance between two pointer
      positions depends only on their client-space distance, not on where the
      box sits, which is why a drag measured from mousedown to mousemove does
      not drift. */
  lemma MappingIsTranslationInvariant(x0: real, y0: real, x1: real, y1: real, box: Box, pixelWidth: nat, pixelHeight: nat)
    requires box.width > 0.0 && box.height > 0.0
    ensures ToSurface(x1, y1, box, pixelWidth, pixelHeight).x - ToSurface(x0, y0, box, pixelWidth, pixelHeight).x
      == (x1 - x0) * (pixelWidth as real / box.width)
    ensures ToSurface(x1, y1, box, pixelWidth, pixelHeight).y - ToSurface(x0, y0, box, pixelWidth, pixelHeight).y
      == (y1 - y0) * (pixelHeight as real / box.height)
  {
    var sx, sy := pixelWidth as real / box.width, pixelHeight as real / box.height;
    assert (x1 - box.left) * sx - (x0 - box.left) * sx == (x1 - x0) * sx;
    assert (y1 - box.top) * sy - (y0 - box.top) * sy == (y1 - y0) * sy;
  }

  /** The points a rectangle spans along one axis, whatever its sign. */
  predicate InSpan(start: real, extent: real, v: real)
  {
    Min(start, start + extent) <= v <= Max(start, start + extent)
  }

  /** `normalizeRectangle`: a negative extent is flipped and the origin moved
      to the other end, so the same region is covered with non-negative
      extents. */
  function NormalizeRectangle(r: Rect): (n: Rect)
    ensures n.width >= 0.0 && n.height >= 0.0
    ensures n.x == Min(r.x, r.x + r.width) && n.x + n.width == Max(r.x, r.x + r.width)
    ensures n.y == Min(r.y, r.y + r.height) && n.y + n.height == Max(r.y, r.y + r.height)
    ensures n.width == Abs(r.width) && n.height == Abs(r.height)
    ensures r.width >= 0.0 && r.height >= 0.0 ==> n == r
  {
    var (x, width) := if r.width < 0.0 then (r.x + r.width, -r.width) else (r.x, r.width);
    var (y, height) := if r.height < 0.0 then (r.y + r.height, -r.height) else (r.y, r.height);
    Rect(x, y, width, height)
  }

  /** Normalizing covers exactly the same points as the raw rectangle. */
  lemma NormalizePreservesRegion(r: Rect, px: real, py: real)
    ensures (InSpan(r.x, r.width, px) && InSpan(r.y, r.height, py))
        <==> (InSpan(NormalizeRectangle(r).x, NormalizeRectangle(r).width, px)
              && InSpan(NormalizeRectangle(r).y, NormalizeRectangle(r).height, py))
  {
  }

  /** Normalizing is idempotent. */
  lemma NormalizeIdempotent(r: Rect)
    ensures NormalizeRectangle(NormalizeRectangle(r)) == NormalizeRectangle(r)
  {
  }
}

=== FILE: merge.dfy ===
/** `mergeSnapOptions(target, source)` as its documentation comment in
    dist/components/methods.d.ts describes it (the body is not part of this
    model): properties of `source` overwrite those of `target` only for the
    keys `source` provides; nested objects merge recursively; primitives
    (and `null`) overwrite; the result is a new value and neither input
    changes, which holds of every function over immutable values. */
module Merge {
  import opened Values

  /** `source` wins on every path it provides: at a non-object position the
      merged value is exactly the source value, and below an object every
      source key is present and again covered. */
  ghost predicate Covers(r: Val, source: Val)
  {
    || r == source
    || (&& source.Obj? && r.Obj?
        && forall k | k in source.fields :: k in r.fields && Covers(r.fields[k], source.fields[k]))
  }

  /** The dual of `Covers`: nothing of the target is lost that the source
      does not replace. Every target key the source lacks keeps its value,
      and under a key where both sides hold objects the target's nested keys
      are kept again, all the way down. A shallow `{ ...target, ...source }`
      fails this as soon as a nested key is only in the target. */
  ghost predicate Keeps(r: Val, target: Val, source: Val)
    decreases source
  {
    && r.Obj? && target.Obj? && source.Obj?
    && forall k | k in target.fields ::
         && k in r.fields
         && (k !in source.fields ==> r.fields[k] == target.fields[k])
         && (k in source.fields && target.fields[k].Obj? && source.fields[k].Obj? ==>
               Keeps(r.fields[k], target.fields[k], source.fields[k]))
  }

  function MergeSnapOptions(target: Val, source: Val): (r: Val)
    ensures target.Obj? && source.Obj? ==>
      r.Obj? && r.fields.Keys == target.fields.Keys + source.fields.Keys
    ensures target.Obj? && source.Obj? ==>
      forall k | k in target.fields && k !in source.fields :: r.fields[k] == target.fields[k]
    ensures Covers(r, source)
    ensures target.Obj? && source.Obj? ==> Keeps(r, target, source)
    decreases source
  {
    if target.Obj? && source.Obj? then
      Obj(map k | k in target.fields.Keys + source.fields.Keys ::
        if k in source.fields then
          (if k in target.fields then MergeSnapOptions(target.fields[k], source.fields[k]) else source.fields[k])
        else target.fields[k])
    else
      source
  }

  /** A key the source gives a primitive, `null` or a non-mergeable value
      replaces the target's value wholesale. */
  lemma MergeOverwritesLeaves(target: Val, source: Val, k: string)
    requires target.Obj? && source.Obj? && k in source.fields
    requires !(k in target.fields && target.fields[k].Obj? && source.fields[k].Obj?)
    ensures MergeSnapOptions(target, source).fields[k] == source.fields[k]
  {
  }

  /** A key present as an object on both sides is merged one level down, so
      the sibling fields of the target's sub-object that the source does not
      mention survive. */
  lemma MergeKeepsNestedSiblings(target: Val, source: Val, k: string, j: string)
    requires target.Obj? && source.Obj? && k in target.fields && k in source.fields
    requires target.fields[k].Obj? && source.fields[k].Obj?
    requires j in target.fields[k].fields && j !in source.fields[k].fields
    ensures MergeSnapOptions(target, source).fields[k].Obj?
    ensures j in MergeSnapOptions(target, source).fields[k].fields
    ensures MergeSnapOptions(target, source).fields[k].fields[j] == target.fields[k].fields[j]
  {
  }

  /** Merging an empty source returns a value deep-equal to the target. */
  lemma MergeEmptySource(target: Val)
    requires target.Obj?
    ensures DeepEqual(MergeSnapOptions(target, Obj(map[])), target)
  {
    var r := MergeSnapOptions(target, Obj(map[]));
    assert r.fields == target.fields;
  }

  /** Merging into an empty target reproduces the source. */
  lemma MergeIntoEmpty(source: Val)
    requires source.Obj?
    ensures MergeSnapOptions(Obj(map[]), source) == source
  {
    var r := MergeSnapOptions(Obj(map[]), source);
    assert r.fields == source.fields;
  }

  /** Merging a value into itself changes nothing. */
  lemma {:induction false} MergeSelf(v: Val)
    ensures MergeSnapOptions(v, v) == v
  {
    if v.Obj? {
      var r := MergeSnapOptions(v, v);
      forall k | k in v.fields
        ensures r.fields[k] == v.fields[k]
      {
        MergeSelf(v.fields[k]);
      }
      assert r.fields == v.fields;
    }
  }

  /** Re-applying the same source is idempotent: resolving an unchanged
      partial configuration again yields the same value. */
  lemma {:induction false} MergeIdempotent(target: Val, source: Val)
    ensures MergeSnapOptions(MergeSnapOptions(target, source), source) == MergeSnapOptions(target, source)
    decreases source
  {
    var once := MergeSnapOptions(target, source);
    if target.Obj? && source.Obj? {
      var twice := MergeSnapOptions(once, source);
      forall k | k in once.fields
        ensures twice.fields[k] == once.fields[k]
      {
        if k in source.fields {
          if k in target.fields {
            MergeIdempotent(target.fields[k], source.fields[k]);
          } else {
            MergeSelf(source.fields[k]);
          }
        }
      }
      assert twice.fields == once.fields;
    } else {
      MergeSelf(source);
    }
  }

  /** The merge as its documentation describes it, key by key: the keys of
      both objects; under a key both have, the two values merged again (which
      for a primitive or `null` on either side is the source's value); under
      a key only one side has, that side's value. Anything that is not a
      pair of objects merges to the source. */
  ghost predicate IsMerge(r: Val, target: Val, source: Val)
    decreases source
  {
    if target.Obj? && source.Obj? then
      && r.Obj?
      && r.fields.Keys == target.fields.Keys + source.fields.Keys
      && forall k | k in r.fields ::
           if k in target.fields && k in source.fields then IsMerge(r.fields[k], target.fields[k], source.fields[k])
           else if k in source.fields then r.fields[k] == source.fields[k]
           else r.fields[k] == target.fields[k]
    else
      r == source
  }

  /** `MergeSnapOptions` is a merge in that sense. */
  lemma {:induction false} MergeIsMerge(target: Val, source: Val)
    ensures IsMerge(MergeSnapOptions(target, source), target, source)
    decreases source
  {
    if target.Obj? && source.Obj? {
      forall k | k in target.fields && k in source.fields
        ensures IsMerge(MergeSnapOptions(target.fields[k], source.fields[k]), target.fields[k], source.fields[k])
      {
        MergeIsMerge(target.fields[k], source.fields[k]);
      }
    }
  }

  /** ... and the only one: any value that is a merge of `target` and
      `source` in that sense is `MergeSnapOptions(target, source)`, so no
      extra key can appear at any depth. */
  lemma {:induction false} MergeIsUnique(r: Val, target: Val, source: Val)
    requires IsMerge(r, target, source)
    ensures r == MergeSnapOptions(target, source)
    decreases source
  {
    if target.Obj? && source.Obj? {
      var m := MergeSnapOptions(target, source);
      forall k | k in r.fields
        ensures r.fields[k] == m.fields[k]
      {
        if k in target.fields && k in source.fields {
          MergeIsUnique(r.fields[k], target.fields[k], source.fields[k]);
        }
      }
      assert r.fields == m.fields;
    }
  }
}

=== FILE: option_values.dfy ===
/** The hook's options as plain JavaScript values, which ties the two ways
    of combining options together: the hook's own `{ ...DEFAULT_OPTION,
    ...option }` (src/components/hooks.ts:90) is a right-biased union of the
    top-level keys, while `mergeSnapOptions` (dist/components/methods.d.ts)
    merges nested objects key by key. */
module OptionValues {
  import opened Optional
  import opened Values
  import opened Merge
  import opened Options

  /** A nested property: a missing one has no key. */
  function PutOpt(m: map<string, Val>, k: string, v: Option<Val>): (r: map<string, Val>)
    ensures v.None? ==> r == m
    ensures v.Some? ==> r == m[k := v.value]
  {
    if v.Some? then m[k := v.value] else m
  }

  /** A top-level property: a missing one has no key, an `undefined` one
      has the key with the value `undefined`. */
  function PutField(m: map<string, Val>, k: string, f: Field<Val>): (r: map<string, Val>)
    ensures f.Absent? ==> r == m
    ensures f.Undefined? ==> r == m[k := Prim(Undef)]
    ensures f.Given? ==> r == m[k := f.value]
  {
    match f
    case Absent => m
    case Undefined => m[k := Prim(Undef)]
    case Given(v) => m[k := v]
  }

  function MapField<T>(f: Field<T>, enc: T -> Val): Field<Val>
  {
    match f
    case Absent => Absent
    case Undefined => Undefined
    case Given(v) => Given(enc(v))
  }

  function MapOpt<T>(o: Option<T>, enc: T -> Val): Option<Val>
  {
    match o
    case None => None
    case Some(v) => Some(enc(v))
  }

  function BoolVal(b: bool): Val { Prim(Bool(b)) }
  function NumVal(n: real): Val { Prim(Num(n)) }
  function StrVal(s: string): Val { Prim(Str(s)) }

  function StyleVal(s: BorderStyle): Val
  {
    StrVal(match s case Dashed => "dashed" case Dotted => "dotted" case Solid => "solid")
  }

  function QualityVal(q: Quality): Val
  {
    StrVal(match q case Low => "low" case Medium => "medium" case High => "high")
  }

  function RectVal(r: RectStyle): Val
  {
    var m := PutOpt(map[], "outterBackgroundColor", MapOpt(r.outterBackgroundColor, StrVal));
    var m := PutOpt(m, "borderColor", MapOpt(r.borderColor, StrVal));
    var m := PutOpt(m, "borderStyle", MapOpt(r.borderStyle, StyleVal));
    Obj(PutOpt(m, "borderWidth", MapOpt(r.borderWidth, NumVal)))
  }

  function HelperTextVal(h: HelperText): Val
  {
    var m := map["show" := BoolVal(h.show)];
    var m := PutOpt(m, "value", MapOpt(h.value, StrVal));
    var m := PutOpt(m, "backgroundColor", MapOpt(h.backgroundColor, StrVal));
    var m := PutOpt(m, "textColor", MapOpt(h.textColor, StrVal));
    var m := PutOpt(m, "fontSize", MapOpt(h.fontSize, NumVal));
    var m := PutOpt(m, "fontFamily", MapOpt(h.fontFamily, StrVal));
    var m := PutOpt(m, "padding", MapOpt(h.padding, NumVal));
    Obj(PutOpt(m, "position", MapOpt(h.position, StrVal)))
  }

  // The top-level keys, put in one at a time in the order of the type. The
  // object is built as a chain of one-key steps, and the spread is proved
  // one step per lemma (`SpreadKeys1` to `SpreadKeys6`), so that each proof
  // unfolds a single key: one proof over all seven keys at once is more
  // than the solver can do in reasonable time.
  function Keys1(o: DrawingOptions): map<string, Val>
  {
    PutField(map[], "drawingEnabled", MapField(o.drawingEnabled, BoolVal))
  }

  function Keys2(o: DrawingOptions): map<string, Val>
  {
    PutField(Keys1(o), "rect", MapField(o.rect, RectVal))
  }

  function Keys3(o: DrawingOptions): map<string, Val>
  {
    PutField(Keys2(o), "isGrayscale", MapField(o.isGrayscale, BoolVal))
  }

  function Keys4(o: DrawingOptions): map<string, Val>
  {
    PutField(Keys3(o), "helperText", MapField(o.helperText, HelperTextVal))
  }

  function Keys5(o: DrawingOptions): map<string, Val>
  {
    PutField(Keys4(o), "cursor", MapField(o.cursor, StrVal))
  }

  function Keys6(o: DrawingOptions): map<string, Val>
  {
    PutField(Keys5(o), "copyImageToClipBoard", MapField(o.copyImageToClipBoard, BoolVal))
  }

  /** The options object a caller would write. */
  function OptionsVal(o: DrawingOptions): (v: Val)
    ensures v.Obj?
  {
    Obj(PutField(Keys6(o), "imageQuality", MapField(o.imageQuality, QualityVal)))
  }

  /** `{ ...base, ...over }` on two objects: every key of `over`, and the keys
      of `base` that `over` lacks. */
  function SpreadVal(base: Val, over: Val): (r: Val)
    requires base.Obj? && over.Obj?
    ensures r.Obj? && r.fields.Keys == base.fields.Keys + over.fields.Keys
    ensures forall k | k in over.fields :: r.fields[k] == over.fields[k]
    ensures forall k | k in base.fields && k !in over.fields :: r.fields[k] == base.fields[k]
  {
    Obj(base.fields + over.fields)
  }

  /** One key of the spread: putting the spread field on top of a spread of
      the earlier keys is spreading the caller's one-key-longer object over
      the default's. */
  lemma SpreadOneKey<T>(a: map<string, Val>, b: map<string, Val>, k: string, d: T, f: Field<T>, enc: T -> Val)
    requires k !in b
    ensures PutField(a + b, k, MapField(Spread(Given(d), f), enc))
         == PutField(a, k, Given(enc(d))) + PutField(b, k, MapField(f, enc))
  {
  }

  /** The first keys of the resolved options are the first keys of the
      default spread with those of the caller. */
  lemma SpreadKeys1(o: DrawingOptions)
    ensures Keys1(ResolveOptions(Some(o))) == Keys1(DefaultOption) + Keys1(o)
  {
    var e: map<string, Val> := map[];
    assert e + e == e;
    SpreadOneKey(e, e, "drawingEnabled", false, o.drawingEnabled, BoolVal);
  }

  lemma SpreadKeys2(o: DrawingOptions)
    ensures Keys2(ResolveOptions(Some(o))) == Keys2(DefaultOption) + Keys2(o)
  {
    SpreadKeys1(o);
    SpreadOneKey(Keys1(DefaultOption), Keys1(o), "rect", DefaultRect, o.rect, RectVal);
  }

  lemma SpreadKeys3(o: DrawingOptions)
    ensures Keys3(ResolveOptions(Some(o))) == Keys3(DefaultOption) + Keys3(o)
  {
    SpreadKeys2(o);
    SpreadOneKey(Keys2(DefaultOption), Keys2(o), "isGrayscale", false, o.isGrayscale, BoolVal);
  }

  lemma SpreadKeys4(o: DrawingOptions)
    ensures Keys4(ResolveOptions(Some(o))) == Keys4(DefaultOption) + Keys4(o)
  {
    SpreadKeys3(o);
    SpreadOneKey(Keys3(DefaultOption), Keys3(o), "helperText", DefaultHelperText, o.helperText, HelperTextVal);
  }

  lemma SpreadKeys5(o: DrawingOptions)
    ensures Keys5(ResolveOptions(Some(o))) == Keys5(DefaultOption) + Keys5(o)
  {
    SpreadKeys4(o);
    SpreadOneKey(Keys4(DefaultOption), Keys4(o), "cursor", "crosshair", o.cursor, StrVal);
  }

  lemma SpreadKeys6(o: DrawingOptions)
    ensures Keys6(ResolveOptions(Some(o))) == Keys6(DefaultOption) + Keys6(o)
  {
    SpreadKeys5(o);
    SpreadOneKey(Keys5(DefaultOption), Keys5(o), "copyImageToClipBoard", true, o.copyImageToClipBoard, BoolVal);
  }

  /** The hook's resolution of options is the plain spread of the caller's
      object over the default object: `ResolveOptions` describes exactly
      `{ ...DEFAULT_OPTION, ...option }`. */
  lemma ResolveIsSpread(o: DrawingOptions)
    ensures OptionsVal(ResolveOptions(Some(o))) == SpreadVal(OptionsVal(DefaultOption), OptionsVal(o))
  {
    SpreadKeys6(o);
    SpreadOneKey(Keys6(DefaultOption), Keys6(o), "imageQuality", High, o.imageQuality, QualityVal);
  }

  /** A caller that only recolours the border. */
  const RecolouredBorder: DrawingOptions :=
    DrawingOptions(Given(true), Given(RectStyle(None, Some("blue"), None, None)),
                   Absent, Absent, Absent, Absent, Absent)

  /** The value at a path of keys, as `v?.[k0]?.[k1]…` reads it. */
  function At(v: Val, path: seq<string>): Option<Val>
    decreases |path|
  {
    if |path| == 0 then Some(v)
    else if v.Obj? && path[0] in v.fields then At(v.fields[path[0]], path[1..])
    else None
  }

  /** The `rect` entry of the default options object. */
  lemma DefaultRectEntry()
    ensures "rect" in OptionsVal(DefaultOption).fields
    ensures OptionsVal(DefaultOption).fields["rect"] == RectVal(DefaultRect)
    ensures RectVal(DefaultRect).fields["borderWidth"] == NumVal(1.0)
  {
    assert Keys2(DefaultOption)["rect"] == RectVal(DefaultRect);
  }

  /** The whole options object of the recolouring caller. */
  lemma RecolouredBorderEntries()
    ensures OptionsVal(RecolouredBorder).fields
         == map["drawingEnabled" := BoolVal(true), "rect" := Obj(map["borderColor" := StrVal("blue")])]
  {
    assert RectVal(RecolouredBorder.rect.value) == Obj(map["borderColor" := StrVal("blue")]);
  }

  /** Whenever a caller's nested object leaves out a key that the default's
      nested object has, the spread drops that default and the merge keeps
      it; so the two results differ, and only the merge keeps the target. */
  lemma SpreadDropsNestedDefault(d: Val, o: Val, k: string, j: string)
    requires d.Obj? && o.Obj? && k in d.fields && k in o.fields
    requires d.fields[k].Obj? && o.fields[k].Obj?
    requires j in d.fields[k].fields && j !in o.fields[k].fields
    ensures At(SpreadVal(d, o), [k, j]) == None
    ensures At(MergeSnapOptions(d, o), [k, j]) == Some(d.fields[k].fields[j])
    ensures !DeepEqual(SpreadVal(d, o), MergeSnapOptions(d, o))
    ensures !Keeps(SpreadVal(d, o), d, o) && Keeps(MergeSnapOptions(d, o), d, o)
  {
    var spread := SpreadVal(d, o);
    var merged := MergeSnapOptions(d, o);
    MergeKeepsNestedSiblings(d, o, k, j);
    assert [k, j][0] == k && [k, j][1..] == [j] && [j][0] == j && [j][1..] == [];
    var mk := merged.fields[k];
    assert At(mk, [j]) == At(mk.fields[j], []) == Some(d.fields[k].fields[j]);
    assert At(merged, [k, j]) == At(mk, [j]);
    assert spread.fields[k] != merged.fields[k];
  }

  /** For that caller the hook's spread loses the default border width of 1,
      while `mergeSnapOptions` keeps it next to the new colour. */
  lemma SpreadLosesWhatMergeKeeps()
    ensures var d, o := OptionsVal(DefaultOption), OptionsVal(RecolouredBorder);
      && At(SpreadVal(d, o), ["rect", "borderWidth"]) == None
      && At(MergeSnapOptions(d, o), ["rect", "borderWidth"]) == Some(Prim(Num(1.0)))
      && !DeepEqual(SpreadVal(d, o), MergeSnapOptions(d, o))
  {
    DefaultRectEntry();
    RecolouredBorderEntries();
    SpreadDropsNestedDefault(OptionsVal(DefaultOption), OptionsVal(RecolouredBorder), "rect", "borderWidth");
  }
}

=== FILE: optional.dfy ===
/** A JavaScript value that may be `undefined`: `None` is `undefined` or a
    property that is not there, `Some(v)` a property holding `v`. */
module Optional {
  datatype Option<+T> = None | Some(value: T)
}

=== FILE: options.dfy ===
/** The options of `useCanvasSnap` (src/components/hooks.ts): their shape, the
    defaults, the shallow spread that resolves a caller's options against the
    defaults, the quality table, and the JavaScript `||` fallbacks the hook
    applies when it reads them. */
module Options {
  import opened Optional

  /** A top-level property of an options object. JavaScript's spread tells a
      property that is not there at all (`Absent`) apart from one that is
      there with the value `undefined` (`Undefined`): only the first lets the
      default through. */
  datatype Field<+T> = Absent | Undefined | Given(value: T) {

    /** Reading the property: both `Absent` and `Undefined` read as `undefined`. */
    function Get(): Option<T> {
      if Given? then Some(value) else None
    }
  }

  datatype BorderStyle = Dashed | Dotted | Solid

  datatype Quality = Low | Medium | High

  /** The nested `rect` options; their fields are read, never spread, so a
      missing field and an `undefined` one behave alike. */
  datatype RectStyle = RectStyle(
    outterBackgroundColor: Option<string>,
    borderColor: Option<string>,
    borderStyle: Option<BorderStyle>,
    borderWidth: Option<real>)

  /** The nested `helperText` options (the label next to the selection). */
  datatype HelperText = HelperText(
    show: bool,
    value: Option<string>,
    backgroundColor: Option<string>,
    textColor: Option<string>,
    fontSize: Option<real>,
    fontFamily: Option<string>,
    padding: Option<real>,
    position: Option<string>)

  /** `CanvasDrawingOptions`: every top-level key may be left out by a caller. */
  datatype DrawingOptions = DrawingOptions(
    drawingEnabled: Field<bool>,
    rect: Field<RectStyle>,
    isGrayscale: Field<bool>,
    helperText: Field<HelperText>,
    cursor: Field<string>,
    copyImageToClipBoard: Field<bool>,
    imageQuality: Field<Quality>)

  /** `DEFAULT_OPTION` (src/components/hooks.ts:48-68). */
  const DefaultRect: RectStyle :=
    RectStyle(Some("rgba(0, 0, 0, 0.1)"), Some("#F14236"), Some(Dashed), Some(1.0))

  const DefaultHelperText: HelperText :=
    HelperText(true, None, Some("#F14236"), Some("#fff"), Some(10.0), None, Some(2.0), Some("bottom-right"))

  const DefaultOption: DrawingOptions :=
    DrawingOptions(Given(false), Given(DefaultRect), Given(false), Given(DefaultHelperText),
                   Given("crosshair"), Given(true), Given(High))

  /** Every top-level key is present (possibly as `undefined`). */
  predicate Complete(o: DrawingOptions)
  {
    && !o.drawingEnabled.Absent? && !o.rect.Absent? && !o.isGrayscale.Absent?
    && !o.helperText.Absent? && !o.cursor.Absent? && !o.copyImageToClipBoard.Absent?
    && !o.imageQuality.Absent?
  }

  /** One key of `{ ...base, ...over }`. */
  function Spread<T>(base: Field<T>, over: Field<T>): Field<T>
  {
    if over.Absent? then base else over
  }

  /** `{ ...DEFAULT_OPTION, ...option }`, with `option` itself defaulting to
      `DEFAULT_OPTION` when the caller passes none. The spread is shallow: a
      caller's `rect` or `helperText` replaces the default object as a whole. */
  function ResolveOptions(option: Option<DrawingOptions>): (r: DrawingOptions)
    ensures Complete(r)
    ensures option.None? ==> r == DefaultOption
    ensures option.Some? && option.value.rect.Given? ==> r.rect == option.value.rect
    ensures option.Some? && option.value.helperText.Given? ==> r.helperText == option.value.helperText
    ensures option.Some? && option.value.rect.Absent? ==> r.rect == Given(DefaultRect)
    ensures option.Some? && option.value.helperText.Absent? ==> r.helperText == Given(DefaultHelperText)
  {
    var o := if option.Some? then option.value else DefaultOption;
    DrawingOptions(
      Spread(DefaultOption.drawingEnabled, o.drawingEnabled),
      Spread(DefaultOption.rect, o.rect),
      Spread(DefaultOption.isGrayscale, o.isGrayscale),
      Spread(DefaultOption.helperText, o.helperText),
      Spread(DefaultOption.cursor, o.cursor),
      Spread(DefaultOption.copyImageToClipBoard, o.copyImageToClipBoard),
      Spread(DefaultOption.imageQuality, o.imageQuality))
  }

  /** A caller `rect` that leaves out `borderWidth` loses the default width
      of 1: the resolved options have no border width at all. */
  lemma ShallowSpreadDropsNestedDefaults(option: DrawingOptions)
    requires option.rect.Given? && option.rect.value.borderWidth.None?
    ensures ResolveOptions(Some(option)).rect.Get().Some?
    ensures ResolveOptions(Some(option)).rect.value.borderWidth.None?
  {
  }

  /** Resolving already-resolved options changes nothing. */
  lemma ResolveIdempotent(option: Option<DrawingOptions>)
    ensures ResolveOptions(Some(ResolveOptions(option))) == ResolveOptions(option)
  {
  }

  /** `imageQualityValue` (src/components/hooks.ts:70-74). */
  function QualityValue(q: Quality): (v: real)
    ensures 0.0 < v <= 1.0
    ensures v == 1.0 <==> q == High
  {
    match q
    case Low => 0.1
    case Medium => 0.5
    case High => 1.0
  }

  /** A higher tier never encodes at a lower quality factor, and distinct
      tiers give distinct factors. */
  lemma QualityValueStrictlyMonotone(a: Quality, b: Quality)
    ensures QualityValue(a) < QualityValue(b) <==> Rank(a) < Rank(b)
    ensures QualityValue(a) == QualityValue(b) <==> a == b
  {
  }

  function Rank(q: Quality): nat
  {
    match q
    case Low => 0
    case Medium => 1
    case High => 2
  }

  /** `imageQualityValue[option.imageQuality!]`: an `undefined` tier looks up
      `undefined`, which leaves the encoder at its own default. */
  function ImageQuality(f: Field<Quality>): (q: Option<real>)
    ensures q.Some? <==> f.Given?
    ensures q.Some? ==> 0.0 < q.value <= 1.0
    ensures q == Some(1.0) <==> f == Given(High)
  {
    if f.Given? then Some(QualityValue(f.value)) else None
  }

  /** JavaScript truthiness of a boolean option. */
  predicate IsSet(f: Field<bool>)
  {
    f == Given(true)
  }

  /** `n || fallback` for a number: `undefined` and `0` both fall back. */
  function NumberOr(n: Option<real>, fallback: real): (r: real)
    ensures r == fallback || (n == Some(r) && r != 0.0)
    ensures n.Some? && n.value != 0.0 ==> r == n.value
    // with a non-zero fallback the result is never 0: padding and text height are never 0
    ensures fallback != 0.0 ==> r != 0.0
  {
    if n.Some? && n.value != 0.0 then n.value else fallback
  }

  /** `s || fallback` for a string: `undefined` and `""` both fall back. */
  function StringOr(s: Option<string>, fallback: string): (r: string)
    ensures r == fallback || (s == Some(r) && r != "")
    ensures s.Some? && s.value != "" ==> r == s.value
    // with a non-empty fallback the result is never empty
    ensures fallback != "" ==> r != ""
  {
    if s.Some? && s.value != "" then s.value else fallback
  }
}

=== FILE: overlay.dfy ===
/** The sibling-list surgery of the layer-creation effect
    (src/components/hooks.ts:101-145): every canvas of class `drawer-layer`
    next to the host is removed, and when drawing is enabled one new layer
    goes in right after the host. */
module Overlay {
  import opened Optional
  import opened Dom

  /** The siblings without any drawer layer, in their original order. */
  function RemoveLayers(s: seq<Node>): (r: seq<Node>)
    ensures |r| <= |s|
    ensures forall n | n in r :: !IsDrawerLayer(n) && n in s
    ensures forall n | n in s && !IsDrawerLayer(n) :: n in r
    decreases |s|
  {
    if |s| == 0 then []
    else (if IsDrawerLayer(s[0]) then [] else [s[0]]) + RemoveLayers(s[1..])
  }

  /** Removing layers distributes over concatenation, so the siblings that
      stay keep their relative order. */
  lemma {:induction false} RemoveLayersAppend(a: seq<Node>, b: seq<Node>)
    ensures RemoveLayers(a + b) == RemoveLayers(a) + RemoveLayers(b)
    decreases |a|
  {
    if |a| > 0 {
      assert (a + b)[0] == a[0];
      assert (a + b)[1..] == a[1..] + b;
      RemoveLayersAppend(a[1..], b);
      var head := if IsDrawerLayer(a[0]) then [] else [a[0]];
      assert RemoveLayers(a + b) == head + RemoveLayers(a[1..] + b);
      assert RemoveLayers(a) == head + RemoveLayers(a[1..]);
    } else {
      assert a + b == b;
    }
  }

  /** Each sibling that is not a layer stays as often as it was there;
      every layer goes. */
  lemma {:induction false} RemoveLayersCounts(s: seq<Node>, n: Node)
    ensures multiset(RemoveLayers(s))[n] == if IsDrawerLayer(n) then 0 else multiset(s)[n]
    decreases |s|
  {
    if |s| > 0 {
      RemoveLayersCounts(s[1..], n);
      assert s == [s[0]] + s[1..];
    }
  }

  /** Removing layers twice is removing them once. */
  lemma RemoveLayersIdempotent(s: seq<Node>)
    ensures RemoveLayers(RemoveLayers(s)) == RemoveLayers(s)
  {
    NoLayersUnchanged(RemoveLayers(s));
  }

  /** A list without layers is left alone. */
  lemma {:induction false} NoLayersUnchanged(s: seq<Node>)
    requires forall n | n in s :: !IsDrawerLayer(n)
    ensures RemoveLayers(s) == s
    decreases |s|
  {
    if |s| > 0 {
      NoLayersUnchanged(s[1..]);
      assert s == [s[0]] + s[1..];
    }
  }

  /** How many drawer layers a sibling list holds. */
  function CountLayers(s: seq<Node>): nat
    decreases |s|
  {
    if |s| == 0 then 0 else (if IsDrawerLayer(s[0]) then 1 else 0) + CountLayers(s[1..])
  }

  lemma {:induction false} CountLayersAppend(a: seq<Node>, b: seq<Node>)
    ensures CountLayers(a + b) == CountLayers(a) + CountLayers(b)
    decreases |a|
  {
    if |a| > 0 {
      assert (a + b)[0] == a[0];
      assert (a + b)[1..] == a[1..] + b;
      CountLayersAppend(a[1..], b);
    } else {
      assert a + b == b;
    }
  }

  lemma {:induction false} CountLayersNone(s: seq<Node>)
    requires forall n | n in s :: !IsDrawerLayer(n)
    ensures CountLayers(s) == 0
    decreases |s|
  {
    if |s| > 0 {
      CountLayersNone(s[1..]);
    }
  }

  /** The first position of `n` in `s`, if any. */
  function IndexOf(s: seq<Node>, n: Node): (i: Option<nat>)
    ensures i.None? <==> n !in s
    ensures i.Some? ==> i.value < |s| && s[i.value] == n && n !in s[..i.value]
    decreases |s|
  {
    if |s| == 0 then None
    else if s[0] == n then Some(0)
    else
      match IndexOf(s[1..], n)
      case None => None
      case Some(j) =>
        assert s[..j + 1] == [s[0]] + s[1..][..j];
        Some(j + 1)
  }

  /** `anchor.after(node)`: `node` goes in right after the first `anchor`;
      a node without a parent list (`anchor` absent) inserts nothing. */
  function InsertAfter(s: seq<Node>, anchor: Node, node: Node): (r: seq<Node>)
    ensures anchor !in s ==> r == s
    ensures anchor in s ==>
      exists i | 0 <= i < |s| :: s[i] == anchor && anchor !in s[..i] && r == s[..i + 1] + [node] + s[i + 1..]
  {
    match IndexOf(s, anchor)
    case None => s
    case Some(i) => s[..i + 1] + [node] + s[i + 1..]
  }

  /** One layer inserted into a layer-free list is the only layer, and
      removing layers takes it out again. */
  lemma InsertOneLayer(a: seq<Node>, b: seq<Node>, layer: Node)
    requires forall n | n in a + b :: !IsDrawerLayer(n)
    requires IsDrawerLayer(layer)
    ensures CountLayers(a + [layer] + b) == 1
    ensures RemoveLayers(a + [layer] + b) == a + b
  {
    assert forall n | n in a :: n in a + b;
    assert forall n | n in b :: n in a + b;
    CountLayersNone(a);
    CountLayersNone(b);
    NoLayersUnchanged(a);
    NoLayersUnchanged(b);
    assert [layer][1..] == [];
    assert CountLayers([layer]) == 1;
    assert RemoveLayers([layer]) == [];
    CountLayersAppend(a, [layer]);
    CountLayersAppend(a + [layer], b);
    RemoveLayersAppend(a, [layer]);
    RemoveLayersAppend(a + [layer], b);
    assert a + [] == a;
  }

  /** The overlay layer made from the host: a canvas (the host is one) whose
      class list is replaced by `drawer-layer`. */
  function LayerNode(id: nat): (n: Node)
    ensures IsDrawerLayer(n)
  {
    Node(id, "CANVAS", {LayerClass})
  }

  /** Inserting a layer after the host in a layer-free list leaves exactly
      that one layer, right after the host. */
  lemma InsertLayerAfterHost(kept: seq<Node>, host: Node, layer: Node)
    requires forall n | n in kept :: !IsDrawerLayer(n)
    requires host in kept && IsDrawerLayer(layer)
    ensures CountLayers(InsertAfter(kept, host, layer)) == 1
    ensures RemoveLayers(InsertAfter(kept, host, layer)) == kept
    ensures exists i | 0 <= i < |InsertAfter(kept, host, layer)| - 1 ::
      InsertAfter(kept, host, layer)[i] == host && InsertAfter(kept, host, layer)[i + 1] == layer
  {
    var r := InsertAfter(kept, host, layer);
    var i :| 0 <= i < |kept| && kept[i] == host && host !in kept[..i] && r == kept[..i + 1] + [layer] + kept[i + 1..];
    assert kept == kept[..i + 1] + kept[i + 1..];
    InsertOneLayer(kept[..i + 1], kept[i + 1..], layer);
    assert r[i] == host && r[i + 1] == layer;
  }

  /** The effect on the host's sibling list: remove every drawer layer, then,
      iff drawing is enabled, insert `layer` right after the host. At most one
      layer is ever left; exactly one when enabled and the host is still in
      the list; dropping layers from the result gives back the non-layer
      siblings in their original order. */
  function ReplaceLayer(siblings: seq<Node>, host: Node, enabled: bool, layer: Node): (r: seq<Node>)
    requires IsDrawerLayer(layer)
    ensures CountLayers(r) <= 1
    ensures CountLayers(r) == 1 <==> enabled && host in RemoveLayers(siblings)
    ensures RemoveLayers(r) == RemoveLayers(siblings)
    ensures enabled && host in RemoveLayers(siblings) ==>
      exists i | 0 <= i < |r| - 1 :: r[i] == host && r[i + 1] == layer
    ensures !enabled ==> r == RemoveLayers(siblings)
  {
    var kept := RemoveLayers(siblings);
    CountLayersNone(kept);
    NoLayersUnchanged(kept);
    if enabled && host in kept then
      InsertLayerAfterHost(kept, host, layer);
      InsertAfter(kept, host, layer)
    else
      kept
  }
}

=== FILE: render.dfy ===
/** What the mousemove handler of src/components/hooks.ts paints on the
    overlay: the mask, the cut-out, the border and the label, as a list of
    abstract 2D-context calls.

    A call whose argument is `undefined`, or NaN computed from `undefined`
    (an unset `borderWidth` or `borderColor`), is one the canvas ignores; the
    model records no command for it. */
module Render {
  import opened Optional
  import opened Options
  import opened Strings
  import opened Geometry

  datatype DrawCmd =
    | ClearRect(x: real, y: real, w: real, h: real)
    | SetFillStyle(color: string)
    | FillRect(x: real, y: real, w: real, h: real)
    | SetLineDash(segments: seq<real>)
    | SetStrokeStyle(color: string)
    | SetLineWidth(width: real)
    | StrokeRect(x: real, y: real, w: real, h: real)
    | SetFont(size: real, family: string)
    | AlignTextBottomRight
    | FillText(text: string, x: real, y: real)

  const DefaultMaskColor: string := "rgba(0, 0, 0, 0.1)"
  const DefaultLabelText: string := "Press Enter to submit, Escape to cancel"
  const DefaultLabelBackground: string := "rgba(36, 172, 71, 0.9)"
  const DefaultLabelColor: string := "white"
  const DefaultFontFamily: string := "Arial"
  const DefaultFontSize: real := 16.0
  const DefaultPadding: real := 8.0
  const DefaultPosition: string := "bottom-right"

  /** `rect?.outterBackgroundColor || 'rgba(0, 0, 0, 0.1)'`. */
  function MaskColor(opts: DrawingOptions): string
  {
    var rect := opts.rect.Get();
    StringOr(if rect.Some? then rect.value.outterBackgroundColor else None, DefaultMaskColor)
  }

  /** Clear the whole overlay, then cover it with the mask colour. */
  function MaskCommands(width: nat, height: nat, color: string): seq<DrawCmd>
  {
    [ClearRect(0.0, 0.0, width as real, height as real),
     SetFillStyle(color),
     FillRect(0.0, 0.0, width as real, height as real)]
  }

  /** The dash pattern of a border style for border width `b`. */
  function DashPattern(style: Option<BorderStyle>, b: real): (d: seq<real>)
    ensures style == Some(Dashed) ==> d == [2.0 * b, b]
    ensures style == Some(Dotted) ==> d == [b, b]
    ensures style != Some(Dashed) && style != Some(Dotted) ==> d == []
    // a positive width gives positive dashes and gaps, a pattern `setLineDash` accepts
    ensures b > 0.0 ==> forall i | 0 <= i < |d| :: d[i] > 0.0
  {
    match style
    case Some(Dashed) => [b * 2.0, b]
    case Some(Dotted) => [b, b]
    case _ => []
  }

  /** `setLineDash`, `strokeStyle`, `lineWidth` and `strokeRect` for the
      border around the cut-out `(x, y, w, h)`, where `(x, y)` is where the
      drag started and `w`, `h` may be negative. The stroked path starts half
      a border width before `(x, y)` and is one border width longer in each
      extent. Only for positive extents does it run outside the cut-out; for
      a drag up or left it moves inwards (see `BorderPlacement`). */
  function BorderCommands(x: real, y: real, w: real, h: real, rect: Option<RectStyle>): (cmds: seq<DrawCmd>)
    ensures var bw := BorderWidthOf(rect);
      var style := if rect.Some? then rect.value.borderStyle else None;
      var color := if rect.Some? then rect.value.borderColor else None;
      // with a width: the style's dash pattern, the colour when one is set,
      // then the width and the stroke of (x - b/2, y - b/2, w + b, h + b)
      && (bw.Some? ==>
            && |cmds| == (if color.Some? then 4 else 3)
            && cmds[0] == SetLineDash(DashPattern(style, bw.value))
            && (color.Some? ==> cmds[1] == SetStrokeStyle(color.value))
            && cmds[|cmds| - 2] == SetLineWidth(bw.value)
            && cmds[|cmds| - 1] == StrokeRect(x - bw.value / 2.0, y - bw.value / 2.0, w + bw.value, h + bw.value))
      // without a width nothing is stroked: a dashed or dotted pattern of
      // NaN is dropped, a solid one is still reset, and the colour is set
      && (bw.None? ==>
            cmds == (if style == Some(Dashed) || style == Some(Dotted) then [] else [SetLineDash([])])
                    + (if color.Some? then [SetStrokeStyle(color.value)] else []))
  {
    var style := if rect.Some? then rect.value.borderStyle else None;
    var width := BorderWidthOf(rect);
    var color := if rect.Some? then rect.value.borderColor else None;
    var dash :=
      if width.Some? then [SetLineDash(DashPattern(style, width.value))]
      else if style == Some(Dashed) || style == Some(Dotted) then []
      else [SetLineDash([])];
    var stroke := if color.Some? then [SetStrokeStyle(color.value)] else [];
    var line :=
      if width.Some? then
        var b := width.value;
        [SetLineWidth(b), StrokeRect(x - b / 2.0, y - b / 2.0, w + b, h + b)]
      else [];
    dash + stroke + line
  }

  /** The two halves of a label anchor such as `"bottom-right"`:
      `position.split('-')`, whose second element is `undefined` when there
      is no dash. */
  datatype Anchor = Anchor(vertical: string, horizontal: Option<string>)

  function ParseAnchor(position: string): (a: Anchor)
    ensures a.vertical == Split(position, '-')[0]
  {
    var parts := Split(position, '-');
    Anchor(parts[0], if |parts| > 1 then Some(parts[1]) else None)
  }

  /** An anchor of the form `vertical-horizontal`, as the `position` type lists them, names its two halves. */
  lemma ParseAnchorOfPair(vertical: string, horizontal: string)
    requires '-' !in vertical && '-' !in horizontal
    ensures ParseAnchor(vertical + "-" + horizontal) == Anchor(vertical, Some(horizontal))
  {
    SplitJoin([vertical, horizontal], '-');
    assert Join([vertical, horizontal], '-') == vertical + "-" + horizontal by {
      assert [vertical, horizontal][1..] == [horizontal];
    }
  }

  /** Where the label's background box and text baseline go. */
  datatype LabelBox = LabelBox(boxX: real, boxY: real, boxW: real, boxH: real, textX: real, textY: real)

  /** The label geometry for the cut-out `(x, y, w, h)`, text width `tw`,
      padding `p` and text height `th`. `(x, y)` is where the drag started
      and `(x + w, y + h)` where it ends, so "right" and "bottom" refer to
      the end point and are the selection's right and bottom edges only for
      a drag towards the bottom right. An unrecognised vertical half leaves
      the label at y = 0; any horizontal half other than left or right is
      centred. The text is drawn right- and bottom-aligned, so `(textX, textY)`
      is its bottom-right corner. */
  function PlaceLabel(x: real, y: real, w: real, h: real, tw: real, p: real, th: real, anchor: Anchor): (l: LabelBox)
    ensures l.boxW == tw + 2.0 * p && l.boxH == th + 2.0 * p
    // the text's right edge sits `p` inside the box's right edge and its left edge `p` inside the left one
    ensures l.textX == l.boxX + l.boxW - p && l.textX - tw == l.boxX + p
    ensures anchor.vertical == "top" || anchor.vertical == "bottom" ==> l.textY == l.boxY + l.boxH - p
    ensures anchor.vertical != "top" && anchor.vertical != "bottom" ==> l.boxY == 0.0 && l.textY == 0.0
    ensures anchor.horizontal == Some("right") ==> l.boxX + l.boxW == x + w
    ensures anchor.horizontal == Some("left") ==> l.boxX == x
    // any other horizontal half "centres" the box, but `p` left of the middle of `x` and `x + w`
    ensures anchor.horizontal != Some("left") && anchor.horizontal != Some("right") ==>
      l.boxX + l.boxW / 2.0 == x + w / 2.0 - p
    ensures anchor.vertical == "bottom" ==> l.textY == y + h + 2.0 * th
    ensures anchor.vertical == "top" ==> l.textY == y - th
  {
    var marginY := th * 2.0 + p;
    var (boxY, textY) :=
      if anchor.vertical == "top" then (y - marginY, y - th)
      else if anchor.vertical == "bottom" then (y + h - th - p * 2.0 + marginY, y + h + marginY - p)
      else (0.0, 0.0);
    var (boxX, textX) :=
      if anchor.horizontal == Some("left") then (x, x + tw + p)
      else if anchor.horizontal == Some("right") then (x + w - tw - p * 2.0, x + w - p)
      else (x + (w - tw) / 2.0 - p * 2.0, x + (w + tw) / 2.0 - p);
    LabelBox(boxX, boxY, tw + p * 2.0, th + p * 2.0, textX, textY)
  }

  /** The label is drawn exactly when `helperText` is set and `show` is true. */
  predicate LabelShown(opts: DrawingOptions)
  {
    opts.helperText.Given? && opts.helperText.value.show
  }

  /** The label commands: font and alignment, background box, text, and the
      reset of the dash pattern. `textWidth` is what `measureText` reports. */
  function LabelCommands(x: real, y: real, w: real, h: real, opts: DrawingOptions, textWidth: real): (cmds: seq<DrawCmd>)
    ensures !LabelShown(opts) ==> cmds == []
    // a shown label writes the configured text, or the default one, never an
    // empty string, and ends by resetting the dash pattern
    ensures LabelShown(opts) ==>
      && |cmds| == 7
      && cmds[5].FillText? && cmds[5].text == StringOr(opts.helperText.value.value, DefaultLabelText)
      && cmds[5].text != ""
      && cmds[6] == SetLineDash([])
    // the box and the text sit where `PlaceLabel` puts them for the
    // configured padding, font size and position, or their defaults
    ensures LabelShown(opts) ==>
      var ht := opts.helperText.value;
      var l := PlaceLabel(x, y, w, h, textWidth, NumberOr(ht.padding, DefaultPadding),
                          NumberOr(ht.fontSize, DefaultFontSize), ParseAnchor(StringOr(ht.position, DefaultPosition)));
      && cmds[3] == FillRect(l.boxX, l.boxY, l.boxW, l.boxH)
      && cmds[5] == FillText(StringOr(ht.value, DefaultLabelText), l.textX, l.textY)
  {
    if !LabelShown(opts) then []
    else
      var ht := opts.helperText.value;
      var p := NumberOr(ht.padding, DefaultPadding);
      var th := NumberOr(ht.fontSize, DefaultFontSize);
      var l := PlaceLabel(x, y, w, h, textWidth, p, th, ParseAnchor(StringOr(ht.position, DefaultPosition)));
      PaintLabel(th, StringOr(ht.fontFamily, DefaultFontFamily),
                 StringOr(ht.backgroundColor, DefaultLabelBackground), StringOr(ht.textColor, DefaultLabelColor),
                 StringOr(ht.value, DefaultLabelText), l)
  }

  /** The calls that paint a label once its geometry is known. */
  function PaintLabel(size: real, family: string, background: string, color: string, text: string, l: LabelBox): seq<DrawCmd>
  {
    [SetFont(size, family),
     AlignTextBottomRight,
     SetFillStyle(background),
     FillRect(l.boxX, l.boxY, l.boxW, l.boxH),
     SetFillStyle(color),
     FillText(text, l.textX, l.textY),
     SetLineDash([])]
  }

  /** `padding || 8` and `fontSize || 16`: a label configured with padding 0
      is drawn with padding 8, so its background box is 16 wider than the
      text; likewise a font size of 0 is drawn at 16. */
  lemma ZeroPaddingFallsBack(x: real, y: real, w: real, h: real, opts: DrawingOptions, textWidth: real)
    requires LabelShown(opts) && opts.helperText.value.padding == Some(0.0)
    ensures var cmds := LabelCommands(x, y, w, h, opts, textWidth);
      && |cmds| == 7
      && cmds[3].FillRect? && cmds[3].w == textWidth + 16.0
      && (opts.helperText.value.fontSize == Some(0.0) ==> cmds[0].SetFont? && cmds[0].size == 16.0)
  {
    var ht := opts.helperText.value;
    var p := NumberOr(ht.padding, DefaultPadding);
    var th := NumberOr(ht.fontSize, DefaultFontSize);
    assert p == 8.0;
    var l := PlaceLabel(x, y, w, h, textWidth, p, th, ParseAnchor(StringOr(ht.position, DefaultPosition)));
    assert l.boxW == textWidth + 16.0;
  }

  /** The redraw of one mousemove: mask, cut-out of the raw (possibly
      negative) extents, border, label. */
  function Redraw(x: real, y: real, w: real, h: real, opts: DrawingOptions,
                  layerWidth: nat, layerHeight: nat, textWidth: real): (r: seq<DrawCmd>)
    // the mask over the whole layer first, the raw cut-out next
    ensures |r| >= 4 && r[..3] == MaskCommands(layerWidth, layerHeight, MaskColor(opts))
    ensures r[3] == ClearRect(x, y, w, h)
    // the border follows the cut-out in its own order, and the label closes
    // the redraw
    ensures var b := BorderCommands(x, y, w, h, opts.rect.Get());
      var l := LabelCommands(x, y, w, h, opts, textWidth);
      && |r| == 4 + |b| + |l|
      && r[4..4 + |b|] == b
      && r[4 + |b|..] == l
    // a shown label comes last, so the redraw ends with its dash reset
    ensures LabelShown(opts) ==> r[|r| - 1] == SetLineDash([])
  {
    var mask := MaskCommands(layerWidth, layerHeight, MaskColor(opts));
    var border := BorderCommands(x, y, w, h, opts.rect.Get());
    var tail := LabelCommands(x, y, w, h, opts, textWidth);
    FourParts(mask, [ClearRect(x, y, w, h)], border, tail);
    mask + [ClearRect(x, y, w, h)] + border + tail
  }

  predicate HasText(cmds: seq<DrawCmd>)
  {
    exists c | c in cmds :: c.FillText?
  }

  predicate HasStroke(cmds: seq<DrawCmd>)
  {
    exists c | c in cmds :: c.StrokeRect?
  }

  /** The border width a redraw reads: `rect?.borderWidth`. */
  function BorderWidth(opts: DrawingOptions): Option<real>
  {
    BorderWidthOf(opts.rect.Get())
  }

  function BorderWidthOf(rect: Option<RectStyle>): Option<real>
  {
    if rect.Some? then rect.value.borderWidth else None
  }

  /** Text and strokes in a concatenation come from one of its parts. */
  lemma HasAppend(a: seq<DrawCmd>, b: seq<DrawCmd>)
    ensures HasText(a + b) <==> HasText(a) || HasText(b)
    ensures HasStroke(a + b) <==> HasStroke(a) || HasStroke(b)
  {
    if HasText(a + b) {
      var c :| c in a + b && c.FillText?;
    }
    if HasStroke(a + b) {
      var c :| c in a + b && c.StrokeRect?;
    }
  }

  /** Only the label writes text, and it never strokes. */
  lemma LabelCommandsShape(x: real, y: real, w: real, h: real, opts: DrawingOptions, textWidth: real)
    ensures var cmds := LabelCommands(x, y, w, h, opts, textWidth);
      !HasStroke(cmds) && (HasText(cmds) <==> LabelShown(opts))
  {
    var cmds := LabelCommands(x, y, w, h, opts, textWidth);
    forall c | c in cmds
      ensures !c.StrokeRect?
    {
    }
    if LabelShown(opts) {
      assert cmds[5] in cmds;
    }
  }

  /** The border strokes exactly when a width is set, and writes no text. */
  lemma BorderCommandsShape(x: real, y: real, w: real, h: real, rect: Option<RectStyle>)
    ensures var cmds := BorderCommands(x, y, w, h, rect);
      !HasText(cmds) && (HasStroke(cmds) <==> BorderWidthOf(rect).Some?)
  {
    var cmds := BorderCommands(x, y, w, h, rect);
    forall c | c in cmds
      ensures !c.FillText? && (c.StrokeRect? ==> BorderWidthOf(rect).Some?)
    {
    }
    if BorderWidthOf(rect).Some? {
      assert cmds[|cmds| - 1] in cmds;
    }
  }

  /** A redraw is its head, its border and its label, in that order. */
  lemma RedrawParts(x: real, y: real, w: real, h: real, opts: DrawingOptions,
                    layerWidth: nat, layerHeight: nat, textWidth: real)
    ensures Redraw(x, y, w, h, opts, layerWidth, layerHeight, textWidth)
      == (MaskCommands(layerWidth, layerHeight, MaskColor(opts)) + [ClearRect(x, y, w, h)])
         + BorderCommands(x, y, w, h, opts.rect.Get()) + LabelCommands(x, y, w, h, opts, textWidth)
  {
  }

  /** A label appears exactly when it is configured to show. */
  lemma RedrawShowsLabel(x: real, y: real, w: real, h: real, opts: DrawingOptions,
                         layerWidth: nat, layerHeight: nat, textWidth: real)
    ensures HasText(Redraw(x, y, w, h, opts, layerWidth, layerHeight, textWidth)) <==> LabelShown(opts)
  {
    var head := MaskCommands(layerWidth, layerHeight, MaskColor(opts)) + [ClearRect(x, y, w, h)];
    var border := BorderCommands(x, y, w, h, opts.rect.Get());
    var tail := LabelCommands(x, y, w, h, opts, textWidth);
    RedrawParts(x, y, w, h, opts, layerWidth, layerHeight, textWidth);
    assert !HasText(head) by {
      forall c | c in head ensures !c.FillText? { }
    }
    BorderCommandsShape(x, y, w, h, opts.rect.Get());
    LabelCommandsShape(x, y, w, h, opts, textWidth);
    ConcatThree(head, border, tail);
  }

  /** A border is stroked exactly when a border width is set, and then it
      starts half a border width before the drag's start point and is one
      border width longer in each extent. */
  lemma RedrawStrokesBorder(x: real, y: real, w: real, h: real, opts: DrawingOptions,
                            layerWidth: nat, layerHeight: nat, textWidth: real)
    ensures var r := Redraw(x, y, w, h, opts, layerWidth, layerHeight, textWidth);
      var bw := BorderWidth(opts);
      && (HasStroke(r) <==> bw.Some?)
      && (bw.Some? ==> StrokeRect(x - bw.value / 2.0, y - bw.value / 2.0, w + bw.value, h + bw.value) in r)
  {
    RedrawStrokesExactlyWithWidth(x, y, w, h, opts, layerWidth, layerHeight, textWidth);
    RedrawStrokesGrownRect(x, y, w, h, opts, layerWidth, layerHeight, textWidth);
  }

  /** The first half of `RedrawStrokesBorder`: only the border strokes. */
  lemma RedrawStrokesExactlyWithWidth(x: real, y: real, w: real, h: real, opts: DrawingOptions,
                                      layerWidth: nat, layerHeight: nat, textWidth: real)
    ensures HasStroke(Redraw(x, y, w, h, opts, layerWidth, layerHeight, textWidth)) <==> BorderWidth(opts).Some?
  {
    var head := MaskCommands(layerWidth, layerHeight, MaskColor(opts)) + [ClearRect(x, y, w, h)];
    var border := BorderCommands(x, y, w, h, opts.rect.Get());
    var tail := LabelCommands(x, y, w, h, opts, textWidth);
    RedrawParts(x, y, w, h, opts, layerWidth, layerHeight, textWidth);
    assert !HasStroke(head) by {
      forall c | c in head ensures !c.StrokeRect? { }
    }
    assert BorderWidth(opts) == BorderWidthOf(opts.rect.Get());
    BorderCommandsShape(x, y, w, h, opts.rect.Get());
    LabelCommandsShape(x, y, w, h, opts, textWidth);
    ConcatThree(head, border, tail);
  }

  /** The second half of `RedrawStrokesBorder`: the stroked rectangle. */
  lemma RedrawStrokesGrownRect(x: real, y: real, w: real, h: real, opts: DrawingOptions,
                               layerWidth: nat, layerHeight: nat, textWidth: real)
    ensures var bw := BorderWidth(opts);
      bw.Some? ==> StrokeRect(x - bw.value / 2.0, y - bw.value / 2.0, w + bw.value, h + bw.value)
                   in Redraw(x, y, w, h, opts, layerWidth, layerHeight, textWidth)
  {
    var r := Redraw(x, y, w, h, opts, layerWidth, layerHeight, textWidth);
    var k := RedrawStrokeIndex(x, y, w, h, opts, layerWidth, layerHeight, textWidth);
    if BorderWidth(opts).Some? {
      assert r[k] in r;
    }
  }

  /** Where the stroke sits in a redraw: last of the border commands. */
  lemma RedrawStrokeIndex(x: real, y: real, w: real, h: real, opts: DrawingOptions,
                          layerWidth: nat, layerHeight: nat, textWidth: real) returns (k: nat)
    ensures var r := Redraw(x, y, w, h, opts, layerWidth, layerHeight, textWidth);
      var bw := BorderWidth(opts);
      bw.Some? ==> k < |r| && r[k] == StrokeRect(x - bw.value / 2.0, y - bw.value / 2.0, w + bw.value, h + bw.value)
  {
    var r := Redraw(x, y, w, h, opts, layerWidth, layerHeight, textWidth);
    var border := BorderCommands(x, y, w, h, opts.rect.Get());
    assert BorderWidth(opts) == BorderWidthOf(opts.rect.Get());
    k := 3 + |border|;
    if BorderWidth(opts).Some? {
      assert r[4..4 + |border|][|border| - 1] == r[k];
    }
  }

  /** Where the parts of a list of four parts sit: the first in front, then
      the second, the third and the fourth as slices at their offsets, and
      the last part's last element at the end. */
  lemma FourParts(a: seq<DrawCmd>, b: seq<DrawCmd>, c: seq<DrawCmd>, d: seq<DrawCmd>)
    ensures (a + b + c + d)[..|a|] == a
    ensures |b| > 0 ==> (a + b + c + d)[|a|] == b[0]
    ensures |d| > 0 ==> (a + b + c + d)[|a + b + c + d| - 1] == d[|d| - 1]
    ensures |a + b + c + d| == |a| + |b| + |c| + |d|
    ensures (a + b + c + d)[|a| + |b|..|a| + |b| + |c|] == c
    ensures (a + b + c + d)[|a| + |b| + |c|..] == d
  {
    assert a + b + c + d == a + (b + c + d);
  }

  /** What a list of three parts keeps of them: the last call of a non-empty
      middle part, and text and strokes exactly from the parts. */
  lemma ConcatThree(a: seq<DrawCmd>, b: seq<DrawCmd>, c: seq<DrawCmd>)
    ensures |b| > 0 ==> b[|b| - 1] in a + b + c
    ensures HasText(a + b + c) <==> HasText(a) || HasText(b) || HasText(c)
    ensures HasStroke(a + b + c) <==> HasStroke(a) || HasStroke(b) || HasStroke(c)
  {
    if |b| > 0 {
      assert (a + b + c)[|a| + |b| - 1] == b[|b| - 1];
    }
    HasAppend(a, b);
    HasAppend(a + b, c);
  }

  /** The stroked border lies outside the cut-out only for a drag towards
      the bottom right: there the stroke's inner edge runs along the
      cut-out's edge. For a drag up and to the left by more than a border
      width the stroke's outer edge runs along the cut-out's edge, so the
      border covers the inside of the selection instead. */
  lemma BorderPlacement(x: real, w: real, b: real)
    requires b >= 0.0
    ensures var s := NormalizeRectangle(Rect(x - b / 2.0, 0.0, w + b, 0.0));
      var c := NormalizeRectangle(Rect(x, 0.0, w, 0.0));
      && (w >= 0.0 ==> s.x + b / 2.0 == c.x && s.x + s.width - b / 2.0 == c.x + c.width)
      && (w + b <= 0.0 ==> s.x - b / 2.0 == c.x && s.x + s.width + b / 2.0 == c.x + c.width)
  {
  }
}

=== FILE: scenarios.dfy ===
/** Properties of `useCanvasSnap` that span several events: what a drag
    selects, what every snapshot looks like, how many callbacks a run of
    events can make, and worked examples of the hook's behaviour, including
    the places where it keeps state a user might expect to be reset. */
module Scenarios {
  import opened Optional
  import opened Options
  import opened Geometry
  import opened Dom
  import opened Render
  import opened Capture
  import opened Overlay
  import opened Session

  /** The number of snapshot callbacks among `effects`. */
  function CallbackCount(effects: seq<Effect>): nat
    decreases |effects|
  {
    if |effects| == 0 then 0
    else (if effects[0].Callback? then 1 else 0) + CallbackCount(effects[1..])
  }

  lemma {:induction false} CallbackCountAppend(a: seq<Effect>, b: seq<Effect>)
    ensures CallbackCount(a + b) == CallbackCount(a) + CallbackCount(b)
    decreases |a|
  {
    if |a| > 0 {
      assert (a + b)[0] == a[0];
      assert (a + b)[1..] == a[1..] + b;
      CallbackCountAppend(a[1..], b);
    } else {
      assert a + b == b;
    }
  }

  /** The keys that end a selection. */
  predicate IsDecisionKey(e: Event)
  {
    e.KeyDown? && (e.key == "Enter" || e.key == "Escape")
  }

  function DecisionKeys(events: seq<Event>): nat
    decreases |events|
  {
    if |events| == 0 then 0
    else (if IsDecisionKey(events[0]) then 1 else 0) + DecisionKeys(events[1..])
  }

  /** One event makes at most one callback, and only an Enter or Escape. */
  lemma DispatchCallbacks(s: State, env: Env, e: Event)
    requires ValidBox(env)
    ensures CallbackCount(Dispatch(s, env, e).effects) <= if IsDecisionKey(e) then 1 else 0
  {
    var effects := Dispatch(s, env, e).effects;
    if e.KeyDown? && e.key == "Enter" && Listening(s, env) && HasArea(s.rect) {
      var snapshot := SubmitSnapshot(s, env);
      var first: seq<Effect> := if env.hasCallback then [Callback(snapshot)] else [];
      var second: seq<Effect> := if IsSet(Opts(env).copyImageToClipBoard) then [CopyToClipboard(snapshot.capturedImage)] else [];
      assert effects == first + second;
      CallbackCountAppend(first, second);
      assert CallbackCount(second) == 0 by {
        if |second| > 0 {
          assert second[1..] == [];
        }
      }
    } else if e.KeyDown? && e.key == "Escape" && Listening(s, env) && env.hasCallback {
      assert effects[1..] == [];
    }
  }

  /** A run of events never calls back more often than Enter and Escape were
      pressed. */
  lemma {:induction false} CallbacksBoundedByKeys(s: State, env: Env, events: seq<Event>)
    requires ValidBox(env)
    ensures CallbackCount(Run(s, env, events).effects) <= DecisionKeys(events)
    decreases |events|
  {
    if |events| > 0 {
      var st := Dispatch(s, env, events[0]);
      DispatchCallbacks(s, env, events[0]);
      CallbacksBoundedByKeys(st.next, env, events[1..]);
      CallbackCountAppend(st.effects, Run(st.next, env, events[1..]).effects);
    }
  }

  /** The two shapes a reported snapshot takes: a cancel carries nothing; a
      submit carries a selection with area and, exactly when the host canvas
      is mounted, the image captured from it. */
  predicate WellFormed(snapshot: Snapshot, env: Env)
  {
    if snapshot.isCanceled then snapshot.capturedImage.None? && snapshot.rectCoords.None?
    else
      && snapshot.rectCoords.Some?
      && HasArea(snapshot.rectCoords.value)
      && snapshot.capturedImage == CaptureRectAsImage(snapshot.rectCoords.value, env.host, Opts(env))
      && (snapshot.capturedImage.Some? <==> env.host.Some?)
  }

  /** Every call out of a run concerns a well-formed snapshot: each callback
      gets one, and each clipboard copy gets the image of a submit. */
  ghost predicate EffectsWellFormed(effects: seq<Effect>, env: Env)
  {
    forall i | 0 <= i < |effects| ::
      && (effects[i].Callback? ==> WellFormed(effects[i].snapshot, env))
      && (effects[i].CopyToClipboard? ==>
            exists r | HasArea(r) :: effects[i].image == CaptureRectAsImage(r, env.host, Opts(env)))
  }

  lemma DispatchWellFormed(s: State, env: Env, e: Event)
    requires ValidBox(env)
    ensures EffectsWellFormed(Dispatch(s, env, e).effects, env)
  {
    var effects := Dispatch(s, env, e).effects;
    if e.KeyDown? && e.key == "Enter" && Listening(s, env) && HasArea(s.rect) {
      var snapshot := SubmitSnapshot(s, env);
      assert WellFormed(snapshot, env);
      forall i | 0 <= i < |effects|
        ensures effects[i].CopyToClipboard? ==>
          exists r | HasArea(r) :: effects[i].image == CaptureRectAsImage(r, env.host, Opts(env))
      {
        if effects[i].CopyToClipboard? {
          assert effects[i].image == CaptureRectAsImage(s.rect, env.host, Opts(env));
        }
      }
    }
  }

  lemma EffectsWellFormedAppend(a: seq<Effect>, b: seq<Effect>, env: Env)
    requires EffectsWellFormed(a, env) && EffectsWellFormed(b, env)
    ensures EffectsWellFormed(a + b, env)
  {
    forall i | 0 <= i < |a + b|
      ensures (a + b)[i] == if i < |a| then a[i] else b[i - |a|]
    {
    }
  }

  /** Every snapshot a run of events reports is well formed. */
  lemma {:induction false} RunWellFormed(s: State, env: Env, events: seq<Event>)
    requires ValidBox(env)
    ensures EffectsWellFormed(Run(s, env, events).effects, env)
    decreases |events|
  {
    if |events| > 0 {
      var st := Dispatch(s, env, events[0]);
      DispatchWellFormed(s, env, events[0]);
      RunWellFormed(st.next, env, events[1..]);
      EffectsWellFormedAppend(st.effects, Run(st.next, env, events[1..]).effects, env);
    }
  }

  /** A press at `c0` followed by a move to `c1` selects the rectangle from
      the first pointer position to the second, whatever the previous
      selection was; normalized, it spans the two positions. */
  lemma DragSelectsBetweenPointers(s: State, env: Env, x0: real, y0: real, x1: real, y1: real)
    requires ValidBox(env) && Listening(s, env)
    ensures var p0 := Pointer(s, env, x0, y0);
      var p1 := Pointer(s, env, x1, y1);
      var r := OnMouseMove(OnMouseDown(s, env, x0, y0).next, env, x1, y1).next.rect;
      var n := NormalizeRectangle(r);
      && r == Rect(p0.x, p0.y, p1.x - p0.x, p1.y - p0.y)
      && n.x == Min(p0.x, p1.x) && n.x + n.width == Max(p0.x, p1.x)
      && n.y == Min(p0.y, p1.y) && n.y + n.height == Max(p0.y, p1.y)
  {
  }

  /** After a drag, the far corner of the selection maps back to the client
      point where the pointer was. */
  lemma DragEndMapsBack(s: State, env: Env, x0: real, y0: real, x1: real, y1: real)
    requires ValidBox(env) && Listening(s, env)
    requires s.layer.value.width > 0 && s.layer.value.height > 0
    ensures var r := OnMouseMove(OnMouseDown(s, env, x0, y0).next, env, x1, y1).next.rect;
      ToClient(Point(r.x + r.width, r.y + r.height), env.box, s.layer.value.width, s.layer.value.height)
        == Point(x1, y1)
  {
    var l := s.layer.value;
    DragSelectsBetweenPointers(s, env, x0, y0, x1, y1);
    MappingRoundTrip(x1, y1, env.box, l.width, l.height);
  }

  /** Enter does not clear the selection: pressing it twice reports the same
      selection twice. */
  lemma EnterTwiceReportsTwice(s: State, env: Env)
    requires ValidBox(env) && Listening(s, env) && HasArea(s.rect) && env.hasCallback
    ensures var first := OnKeyDown(s, env, "Enter");
      var second := OnKeyDown(first.next, env, "Enter");
      && first.effects[0] == Callback(SubmitSnapshot(s, env))
      && second.effects[0] == first.effects[0]
  {
  }

  /** Escape in the middle of a drag clears the selection but not the
      drawing flag, so the next move draws a rectangle from the overlay's
      top-left corner to the pointer. */
  lemma EscapeMidDragKeepsDrawing(s: State, env: Env, x: real, y: real)
    requires ValidBox(env) && Listening(s, env) && s.drawing
    ensures var t := OnKeyDown(s, env, "Escape").next;
      var p := Pointer(s, env, x, y);
      && t.drawing
      && OnMouseMove(t, env, x, y).next.rect == Rect(0.0, 0.0, p.x, p.y)
  {
  }

  /** A click without a drag moves the start point but keeps the extents of
      the previous selection, and Enter then reports a selection of the old
      size at the clicked point. */
  lemma ClickKeepsStaleExtents(s: State, env: Env, x: real, y: real)
    requires ValidBox(env) && Listening(s, env) && HasArea(s.rect) && env.hasCallback
    ensures var p := Pointer(s, env, x, y);
      var t := OnMouseUp(OnMouseDown(s, env, x, y).next, env).next;
      var snapshot := OnKeyDown(t, env, "Enter").effects[0].snapshot;
      snapshot.rectCoords == Some(Rect(p.x, p.y, s.rect.width, s.rect.height))
  {
  }

  /** Enter reports first, then copies the same image to the clipboard. */
  lemma SubmitOrder(s: State, env: Env)
    requires ValidBox(env) && Listening(s, env) && HasArea(s.rect)
    requires env.hasCallback && IsSet(Opts(env).copyImageToClipBoard)
    ensures var effects := OnKeyDown(s, env, "Enter").effects;
      && |effects| == 2
      && effects[0].Callback? && effects[1].CopyToClipboard?
      && effects[1].image == effects[0].snapshot.capturedImage
  {
  }

  // A worked example: a 500 by 300 host shown at its pixel size at the
  // page origin, drawing enabled, everything else at its default.

  const HostNode: Node := Node(1, "CANVAS", {})
  const ExampleHost: Host := Host(HostNode, 500, 300, "", "")
  const ExampleOption: DrawingOptions := DefaultOption.(drawingEnabled := Given(true))
  const ExampleEnv: Env := Env(Some(ExampleOption), Some(ExampleHost), Box(0.0, 0.0, 500.0, 300.0), true, 60.0)

  /** The state after mounting: one layer, right after the host. */
  const MountedState: State :=
    State(ZeroRect, false, [HostNode, LayerNode(2)], Some(Layer(LayerNode(2), 500, 300)))

  /** Mounting with drawing enabled puts one layer right after the host,
      masks it and attaches the listeners. */
  lemma MountExample()
    ensures var st := OverlayEffect(Initial([HostNode]), ExampleEnv, 2);
      && st.next == MountedState
      && st.draws == MaskCommands(500, 300, "rgba(0, 0, 0, 0.1)")
    ensures Listening(MountedState, ExampleEnv)
  {
    assert [HostNode][1..] == [];
    assert RemoveLayers([HostNode]) == [HostNode];
    assert IndexOf([HostNode], HostNode) == Some(0);
    assert [HostNode][..1] + [LayerNode(2)] + [HostNode][1..] == [HostNode, LayerNode(2)];
  }

  /** On this host the pointer mapping is the identity. */
  lemma ExamplePointer(x: real, y: real)
    ensures Pointer(MountedState, ExampleEnv, x, y) == Point(x, y)
  {
  }

  /** Dragging from (120, 80) to (220, 180) and releasing leaves the 100 by
      100 selection at (120, 80), with drawing stopped. */
  lemma ForwardDragExample()
    ensures var s1 := OnMouseDown(MountedState, ExampleEnv, 120.0, 80.0).next;
      var s2 := OnMouseMove(s1, ExampleEnv, 220.0, 180.0).next;
      OnMouseUp(s2, ExampleEnv).next == MountedState.(rect := Rect(120.0, 80.0, 100.0, 100.0))
  {
    MountExample();
    ExamplePointer(120.0, 80.0);
    ExamplePointer(220.0, 180.0);
  }

  /** The image Enter captures from that selection: 100 by 100, filled white
      (the host sets no inline background), the region at (120, 80) copied
      without a filter, at quality 1. */
  const ExampleImage: Image :=
    Image(100, 100, [FillBackground("#ffffff", 100, 100),
                     CopyRegion(120.0, 80.0, 100.0, 100.0, 0.0, 0.0, 100.0, 100.0)], Some(1.0))

  /** Enter on that selection reports it with its image, then copies the
      image to the clipboard. */
  lemma SubmitExample()
    ensures OnKeyDown(MountedState.(rect := Rect(120.0, 80.0, 100.0, 100.0)), ExampleEnv, "Enter").effects
      == [Callback(Snapshot(false, Some(ExampleImage), Some(Rect(120.0, 80.0, 100.0, 100.0)))),
          CopyToClipboard(Some(ExampleImage))]
  {
    MountExample();
    var r := Rect(120.0, 80.0, 100.0, 100.0);
    assert CanvasSize(100.0) == 100;
    assert CaptureRectAsImage(r, Some(ExampleHost), Opts(ExampleEnv)) == Some(ExampleImage);
  }

  /** Dragging the other way, from (220, 180) to (120, 80), leaves negative
      extents; normalizing gives the same selection as the forward drag, but
      the image is copied from the region that starts at (220, 180). */
  lemma ReverseDragExample()
    ensures var s1 := OnMouseDown(MountedState, ExampleEnv, 220.0, 180.0).next;
      var r := OnMouseMove(s1, ExampleEnv, 120.0, 80.0).next.rect;
      && r == Rect(220.0, 180.0, -100.0, -100.0)
      && NormalizeRectangle(r) == Rect(120.0, 80.0, 100.0, 100.0)
      && SourceRegion(r) == Rect(220.0, 180.0, 100.0, 100.0)
  {
    MountExample();
    ExamplePointer(220.0, 180.0);
    ExamplePointer(120.0, 80.0);
  }

  /** A purely vertical drag has no width, and Enter then reports nothing. */
  lemma VerticalDragReportsNothing()
    ensures var s1 := OnMouseDown(MountedState, ExampleEnv, 120.0, 80.0).next;
      var s2 := OnMouseMove(s1, ExampleEnv, 120.0, 180.0).next;
      var st := OnKeyDown(s2, ExampleEnv, "Enter");
      && s2.rect == Rect(120.0, 80.0, 0.0, 100.0)
      && st.effects == []
      && st.preventDefault
  {
    MountExample();
    ExamplePointer(120.0, 80.0);
    ExamplePointer(120.0, 180.0);
  }

  /** Escape reports exactly the cancel snapshot and clears the overlay. */
  lemma EscapeExample()
    ensures var st := OnKeyDown(MountedState, ExampleEnv, "Escape");
      && st.effects == [Callback(Snapshot(true, None, None))]
      && st.draws == [ClearRect(0.0, 0.0, 500.0, 300.0)]
      && st.next.rect == ZeroRect
  {
    MountExample();
  }

  /** Turning drawing off removes the layer from the page but keeps it,
      cleared, in the hook's state. */
  lemma DisableExample()
    ensures var off := Env(Some(DefaultOption), Some(ExampleHost), ExampleEnv.box, true, 60.0);
      var st := OverlayEffect(MountedState, off, 3);
      && st.next == MountedState.(siblings := [HostNode])
      && st.draws == [ClearRect(0.0, 0.0, 500.0, 300.0)]
      && !Listening(st.next, off)
  {
    var sibs := [HostNode, LayerNode(2)];
    assert sibs[1..] == [LayerNode(2)] && sibs[1..][1..] == [];
    assert RemoveLayers(sibs) == [HostNode];
  }

  /** Turning it on again puts exactly one new layer back after the host. */
  lemma ReenableExample()
    ensures OverlayEffect(MountedState.(siblings := [HostNode]), ExampleEnv, 4).next
      == State(ZeroRect, false, [HostNode, LayerNode(4)], Some(Layer(LayerNode(4), 500, 300)))
  {
    assert [HostNode][1..] == [];
    assert RemoveLayers([HostNode]) == [HostNode];
    assert IndexOf([HostNode], HostNode) == Some(0);
    assert [HostNode][..1] + [LayerNode(4)] + [HostNode][1..] == [HostNode, LayerNode(4)];
  }
}

=== FILE: session.dfy ===
/** `useCanvasSnap` (src/components/hooks.ts:76-421) as a state machine.
    The hook's React state (the selection rectangle, the drawing flag, the
    overlay layer) and the host's sibling list form a `State`; each DOM event
    and each effect run is a function from a state to the next state, the
    calls made on the overlay's 2D context, the calls out of the hook
    (the snapshot callback and the clipboard copy) and whether the browser's
    default action for the event was prevented.

    React re-creates the handlers after every state change, so each event
    is modelled as seeing the state left by all earlier events. */
module Session {
  import opened Optional
  import opened Options
  import opened Geometry
  import opened Dom
  import opened Render
  import opened Capture
  import opened Overlay

  /** The hook's state: `rectCoords`, `isDrawing`, `layerCanvas`, plus the
      children of the host's parent element. */
  datatype State = State(rect: Rect, drawing: bool, siblings: seq<Node>, layer: Option<Layer>)

  /** What the hook reads from outside and does not change: the options
      argument, the host canvas (`canvasRef.current`, absent before mount),
      the layer's bounding box in client space, whether a callback was
      passed, and the width `measureText` reports for the label text. */
  datatype Env = Env(option: Option<DrawingOptions>, host: Option<Host>, box: Box, hasCallback: bool, textWidth: real)

  datatype Event =
    | MouseDown(clientX: real, clientY: real)
    | MouseMove(clientX: real, clientY: real)
    | MouseUp
    | KeyDown(key: string)

  /** `SnapshotProps`: `capturedImage` and `rectCoords` are `null` on a cancel. */
  datatype Snapshot = Snapshot(isCanceled: bool, capturedImage: Option<Image>, rectCoords: Option<Rect>)

  /** Calls out of the hook: `callBack(snapshot)` and
      `copyBase64ImageToClipboard(capturedImage)`. */
  datatype Effect = Callback(snapshot: Snapshot) | CopyToClipboard(image: Option<Image>)

  /** One transition: the next state, the calls on the overlay layer's
      context (the layer of `next`), the calls out, and `preventDefault`. */
  datatype Step = Step(next: State, draws: seq<DrawCmd>, effects: seq<Effect>, preventDefault: bool)

  /** The hook before its first effect: no selection, not drawing, no layer. */
  function Initial(siblings: seq<Node>): State
  {
    State(ZeroRect, false, siblings, None)
  }

  /** The snapshot every cancel reports. */
  const CancelSnapshot: Snapshot := Snapshot(true, None, None)

  /** `defaultOption`. */
  function Opts(env: Env): DrawingOptions
  {
    ResolveOptions(env.option)
  }

  /** The layer's displayed box must have a positive size for the pointer
      mapping to be defined. */
  predicate ValidBox(env: Env)
  {
    env.box.width > 0.0 && env.box.height > 0.0
  }

  /** The listeners are attached exactly when a layer exists and drawing is
      enabled. */
  predicate Listening(s: State, env: Env)
  {
    s.layer.Some? && IsSet(Opts(env).drawingEnabled)
  }

  /** The state as the event found it, with nothing drawn and nothing called. */
  function Idle(s: State): Step
  {
    Step(s, [], [], false)
  }

  /** The pointer position on the layer's pixel grid. */
  function Pointer(s: State, env: Env, clientX: real, clientY: real): Point
    requires ValidBox(env) && s.layer.Some?
  {
    ToSurface(clientX, clientY, env.box, s.layer.value.width, s.layer.value.height)
  }

  /** mousedown: the start point moves to the pointer and drawing starts;
      the extents of the previous selection are kept. */
  function OnMouseDown(s: State, env: Env, clientX: real, clientY: real): (st: Step)
    requires ValidBox(env)
    ensures !Listening(s, env) ==> st == Idle(s)
    ensures Listening(s, env) ==>
      && st.next.drawing
      && st.next.rect.x * env.box.width == (clientX - env.box.left) * s.layer.value.width as real
      && st.next.rect.y * env.box.height == (clientY - env.box.top) * s.layer.value.height as real
      && st.next.rect.width == s.rect.width && st.next.rect.height == s.rect.height
    ensures st.next.siblings == s.siblings && st.next.layer == s.layer
    ensures st.draws == [] && st.effects == [] && !st.preventDefault
  {
    if !Listening(s, env) then Idle(s)
    else
      var p := Pointer(s, env, clientX, clientY);
      Step(s.(rect := s.rect.(x := p.x, y := p.y), drawing := true), [], [], false)
  }

  /** mousemove while drawing: the far corner follows the pointer (the start
      point stays) and the overlay is repainted for the new rectangle. */
  function OnMouseMove(s: State, env: Env, clientX: real, clientY: real): (st: Step)
    requires ValidBox(env)
    ensures !Listening(s, env) || !s.drawing ==> st == Idle(s)
    ensures Listening(s, env) && s.drawing ==>
      && st.next == s.(rect := st.next.rect)
      && st.next.rect.x == s.rect.x && st.next.rect.y == s.rect.y
      && st.next.rect.x + st.next.rect.width == Pointer(s, env, clientX, clientY).x
      && st.next.rect.y + st.next.rect.height == Pointer(s, env, clientX, clientY).y
      && st.draws == Redraw(st.next.rect.x, st.next.rect.y, st.next.rect.width, st.next.rect.height,
                            Opts(env), s.layer.value.width, s.layer.value.height, env.textWidth)
    ensures st.effects == [] && !st.preventDefault
  {
    if !Listening(s, env) || !s.drawing then Idle(s)
    else
      var p := Pointer(s, env, clientX, clientY);
      var r := s.rect.(width := p.x - s.rect.x, height := p.y - s.rect.y);
      var l := s.layer.value;
      Step(s.(rect := r), Redraw(r.x, r.y, r.width, r.height, Opts(env), l.width, l.height, env.textWidth), [], false)
  }

  /** mouseup: drawing stops, the selection stays. */
  function OnMouseUp(s: State, env: Env): (st: Step)
    ensures !Listening(s, env) ==> st == Idle(s)
    ensures Listening(s, env) ==> st.next == s.(drawing := false)
    ensures st.draws == [] && st.effects == [] && !st.preventDefault
  {
    if !Listening(s, env) then Idle(s) else Step(s.(drawing := false), [], [], false)
  }

  /** The snapshot Enter reports for the current selection. */
  function SubmitSnapshot(s: State, env: Env): Snapshot
  {
    Snapshot(false, CaptureRectAsImage(s.rect, env.host, Opts(env)), Some(s.rect))
  }

  /** The calls out of one Enter. */
  function SubmitEffects(s: State, env: Env): seq<Effect>
  {
    var snapshot := SubmitSnapshot(s, env);
    (if env.hasCallback then [Callback(snapshot)] else [])
      + (if IsSet(Opts(env).copyImageToClipBoard) then [CopyToClipboard(snapshot.capturedImage)] else [])
  }

  /** A selection Enter accepts: both extents non-zero. */
  predicate HasArea(r: Rect)
  {
    r.width != 0.0 && r.height != 0.0
  }

  /** keydown on the document body. Every key's default action is prevented
      while listening. Enter on a selection with area reports it (callback
      first, then the clipboard copy) and stops drawing without clearing the
      selection; Enter on a flat selection does nothing. Escape clears the
      overlay and the selection and reports a cancel, but leaves the drawing
      flag as it was. */
  function OnKeyDown(s: State, env: Env, key: string): (st: Step)
    ensures st.preventDefault <==> Listening(s, env)
    ensures st.next.siblings == s.siblings && st.next.layer == s.layer
    ensures !Listening(s, env) || (key != "Enter" && key != "Escape") ==> st.next == s && st.draws == [] && st.effects == []
    ensures Listening(s, env) && key == "Enter" ==>
      && st.draws == []
      && st.next.rect == s.rect
      && (HasArea(s.rect) ==> !st.next.drawing && st.effects == SubmitEffects(s, env))
      && (!HasArea(s.rect) ==> st.next == s && st.effects == [])
    ensures Listening(s, env) && key == "Escape" ==>
      && st.next == s.(rect := ZeroRect)
      && st.draws == [ClearRect(0.0, 0.0, s.layer.value.width as real, s.layer.value.height as real)]
      && st.effects == (if env.hasCallback then [Callback(CancelSnapshot)] else [])
  {
    if !Listening(s, env) then Idle(s)
    else if key == "Enter" then
      if !HasArea(s.rect) then Step(s, [], [], true)
      else Step(s.(drawing := false), [], SubmitEffects(s, env), true)
    else if key == "Escape" then
      var l := s.layer.value;
      Step(s.(rect := ZeroRect), [ClearRect(0.0, 0.0, l.width as real, l.height as real)],
           if env.hasCallback then [Callback(CancelSnapshot)] else [], true)
    else Step(s, [], [], true)
  }

  function Dispatch(s: State, env: Env, e: Event): (st: Step)
    requires ValidBox(env)
    ensures st.next.siblings == s.siblings && st.next.layer == s.layer
    ensures !Listening(s, env) ==> st.next == s && st.draws == [] && st.effects == [] && !st.preventDefault
  {
    match e
    case MouseDown(x, y) => OnMouseDown(s, env, x, y)
    case MouseMove(x, y) => OnMouseMove(s, env, x, y)
    case MouseUp => OnMouseUp(s, env)
    case KeyDown(k) => OnKeyDown(s, env, k)
  }

  /** The layer-creation effect (src/components/hooks.ts:101-145), followed
      by the disabled branch of the listener effect (lines 196-208). With a
      host it resets the selection and removes every drawer layer next to
      the host; when drawing is enabled it then inserts a fresh layer with
      the host's pixel size right after the host and paints the mask on it.
      A host without a parent has no siblings to edit. Without a host the
      layer-creation effect does nothing. When drawing is disabled the old
      layer, if any, stays in the hook's state, detached, and the listener
      effect clears it, with or without a host. The drawing flag is not
      touched. */
  function OverlayEffect(s: State, env: Env, freshId: nat): (st: Step)
    ensures env.host.None? ==> st.next == s
    ensures env.host.None? && IsSet(Opts(env).drawingEnabled) ==> st.draws == []
    ensures env.host.Some? ==>
      && st.next.rect == ZeroRect
      && st.next.drawing == s.drawing
      && (env.host.value.node !in s.siblings ==> st.next.siblings == s.siblings)
      && (env.host.value.node in s.siblings ==>
            CountLayers(st.next.siblings) <= 1 && RemoveLayers(st.next.siblings) == RemoveLayers(s.siblings))
    ensures env.host.Some? && IsSet(Opts(env).drawingEnabled) ==>
      && st.next.layer == Some(Layer(LayerNode(freshId), env.host.value.width, env.host.value.height))
      && st.draws == MaskCommands(env.host.value.width, env.host.value.height, MaskColor(Opts(env)))
      && (env.host.value.node in s.siblings ==>
            (CountLayers(st.next.siblings) == 1 <==> env.host.value.node in RemoveLayers(s.siblings)))
    // the one layer is the new one, right after the host
    ensures env.host.Some? && IsSet(Opts(env).drawingEnabled) && env.host.value.node in RemoveLayers(s.siblings) ==>
      exists i | 0 <= i < |st.next.siblings| - 1 ::
        st.next.siblings[i] == env.host.value.node && st.next.siblings[i + 1] == LayerNode(freshId)
    ensures !IsSet(Opts(env).drawingEnabled) ==>
      && st.next.layer == s.layer
      && (s.layer.Some? ==> st.draws == [ClearRect(0.0, 0.0, s.layer.value.width as real, s.layer.value.height as real)])
      && (s.layer.None? ==> st.draws == [])
    ensures env.host.Some? && !IsSet(Opts(env).drawingEnabled) && env.host.value.node in s.siblings ==>
      CountLayers(st.next.siblings) == 0
    ensures st.effects == [] && !st.preventDefault
  {
    var opts := Opts(env);
    var enabled := IsSet(opts.drawingEnabled);
    var clear := if s.layer.Some? then [ClearRect(0.0, 0.0, s.layer.value.width as real, s.layer.value.height as real)] else [];
    if env.host.None? then
      Step(s, if enabled then [] else clear, [], false)
    else
      var host := env.host.value;
      var node := LayerNode(freshId);
      var siblings :=
        if host.node in s.siblings then ReplaceLayer(s.siblings, host.node, enabled, node)
        else
          assert host.node !in RemoveLayers(s.siblings);
          s.siblings;
      if enabled then
        Step(State(ZeroRect, s.drawing, siblings, Some(Layer(node, host.width, host.height))),
             MaskCommands(host.width, host.height, MaskColor(opts)), [], false)
      else
        Step(s.(rect := ZeroRect, siblings := siblings), clear, [], false)
  }

  /** The outcome of a sequence of events: the final state and every call out,
      in order. */
  datatype Trace = Trace(final: State, effects: seq<Effect>)

  function Run(s: State, env: Env, events: seq<Event>): (t: Trace)
    requires ValidBox(env)
    // events never touch the DOM: only the overlay effect changes the layer and the siblings
    ensures t.final.layer == s.layer && t.final.siblings == s.siblings
    // without listeners (no layer, or drawing disabled) no event has any effect
    ensures !Listening(s, env) ==> t == Trace(s, [])
    decreases |events|
  {
    if |events| == 0 then Trace(s, [])
    else
      var st := Dispatch(s, env, events[0]);
      var rest := Run(st.next, env, events[1..]);
      Trace(rest.final, st.effects + rest.effects)
  }
}

=== FILE: strings.dfy ===
/** `String.prototype.split` on a one-character separator, which the label
    code uses to take an anchor such as `"bottom-right"` apart, and its
    inverse `join`. */
module Strings {

  /** `s.split(sep)`: the maximal separator-free pieces of `s`, in order;
      there is always at least one piece, and an empty string gives `[""]`. */
  function Split(s: string, sep: char): (parts: seq<string>)
    ensures |parts| >= 1
    ensures forall i | 0 <= i < |parts| :: sep !in parts[i]
    ensures Join(parts, sep) == s
    decreases |s|
  {
    if |s| == 0 then [""]
    else
      var rest := Split(s[1..], sep);
      if s[0] == sep then
        assert ([""] + rest)[1..] == rest;
        [""] + rest
      else
        var parts := [[s[0]] + rest[0]] + rest[1..];
        assert parts[1..] == rest[1..];
        assert |rest| > 1 ==> Join(rest, sep) == rest[0] + [sep] + Join(rest[1..], sep);
        assert s == [s[0]] + s[1..];
        parts
  }

  /** `parts.join(sep)`. */
  function Join(parts: seq<string>, sep: char): string
    requires |parts| >= 1
    decreases |parts|
  {
    if |parts| == 1 then parts[0] else parts[0] + [sep] + Join(parts[1..], sep)
  }

  /** A separator-free prefix glues onto the first piece. */
  lemma {:induction false} SplitPrefix(a: string, t: string, sep: char)
    requires sep !in a
    ensures Split(a + t, sep) == [a + Split(t, sep)[0]] + Split(t, sep)[1..]
    decreases |a|
  {
    if |a| > 0 {
      assert (a + t)[1..] == a[1..] + t;
      SplitPrefix(a[1..], t, sep);
      assert [a[0]] + (a[1..] + Split(t, sep)[0]) == a + Split(t, sep)[0];
    } else {
      var rest := Split(t, sep);
      assert a + t == t && a + rest[0] == rest[0];
      assert [rest[0]] + rest[1..] == rest;
    }
  }

  /** Splitting a join of separator-free pieces gives the pieces back. */
  lemma {:induction false} SplitJoin(parts: seq<string>, sep: char)
    requires |parts| >= 1
    requires forall i | 0 <= i < |parts| :: sep !in parts[i]
    ensures Split(Join(parts, sep), sep) == parts
    decreases |parts|
  {
    if |parts| == 1 {
      SplitPrefix(parts[0], "", sep);
      assert parts[0] + "" == parts[0];
    } else {
      var tail := Join(parts[1..], sep);
      SplitJoin(parts[1..], sep);
      assert parts[0] + [sep] + tail == parts[0] + ([sep] + tail);
      assert ([sep] + tail)[1..] == tail;
      assert Split([sep] + tail, sep) == [""] + parts[1..];
      SplitPrefix(parts[0], [sep] + tail, sep);
      assert parts[0] + "" == parts[0];
      assert parts == [parts[0]] + parts[1..];
    }
  }
}

=== FILE: values.dfy ===
/** JSON-like values and the structural equality `deepEqual` of
    src/components/canvas-shooter/methods.ts.

    A value is `null`, a primitive, or an object whose own enumerable
    properties form a finite map from key to value. Values are finite trees,
    so there are no cycles; JavaScript `NaN` is not a `real` and is left out,
    which makes every primitive equal (`===`) to itself. */
module Values {

  datatype Prim = Undef | Bool(b: bool) | Num(n: real) | Str(s: string)

  datatype Val = Null | Prim(p: Prim) | Obj(fields: map<string, Val>)

  /** `deepEqual(a, b)`: identical values are equal outright; otherwise both
      sides must be objects with the same number of own keys, and every key of
      `a` must be a key of `b` whose value is recursively deep-equal.

      A value here carries no reference, and `===` on two objects compares
      references: two objects with equal contents may be distinct objects.
      So the identity test is decided by value only when a side is `null` or
      a primitive, and two objects always go through the key walk. For the
      same object on both sides the walk answers `true` as the shortcut does,
      so nothing is lost.

      The contract is the meaning of the test: it holds exactly when the two
      value trees are equal, although the loop walks only the keys of `a`. */
  function DeepEqual(a: Val, b: Val): (r: bool)
    ensures r <==> a == b
  {
    if !a.Obj? || !b.Obj? then a == b
    else if |a.fields| != |b.fields| then false
    else
      EqualCountCoveringMapsEqual(a.fields, b.fields);
      forall k | k in a.fields :: k in b.fields && DeepEqual(a.fields[k], b.fields[k])
  }

  /** A subset is no larger than its superset. */
  lemma {:induction false} SubsetSize<K>(a: set<K>, b: set<K>)
    requires a <= b
    ensures |a| <= |b|
    decreases a
  {
    if a != {} {
      var k :| k in a;
      SubsetSize(a - {k}, b - {k});
    }
  }

  /** Two finite key sets of equal size, one inside the other, are equal. */
  lemma SubsetOfSameSize<K>(a: set<K>, b: set<K>)
    requires a <= b && |a| == |b|
    ensures a == b
  {
    if a != b {
      var k :| k in b && k !in a;
      SubsetSize(a, b - {k});
    }
  }

  /** The key-count and one-way membership tests of `deepEqual` suffice:
      two maps with equally many keys, every key of the first mapped to the
      same value in the second, are equal, because equal key counts rule out
      extra keys in the second. */
  lemma EqualCountCoveringMapsEqual<K, V>(a: map<K, V>, b: map<K, V>)
    ensures |a| == |b| && (forall k | k in a :: k in b && a[k] == b[k]) ==> a == b
  {
    if |a| == |b| && forall k | k in a :: k in b && a[k] == b[k] {
      assert a.Keys <= b.Keys;
      assert |a.Keys| == |a| && |b.Keys| == |b|;
      SubsetOfSameSize(a.Keys, b.Keys);
    }
  }

  /** Distinct primitives (and `null` against anything else) are never deep-equal. */
  lemma DistinctNonObjectsUnequal(a: Val, b: Val)
    requires !a.Obj? || !b.Obj?
    ensures DeepEqual(a, b) <==> a == b
  {
  }

  /** Objects whose key counts differ are never deep-equal. */
  lemma KeyCountMismatchUnequal(a: Val, b: Val)
    requires a.Obj? && b.Obj? && |a.fields| != |b.fields|
    ensures !DeepEqual(a, b)
  {
  }

  /** Symmetry: the loop only walks the keys of its first argument, yet
      swapping the arguments cannot change the answer. */
  lemma {:induction false} DeepEqualSymmetric(a: Val, b: Val)
    ensures DeepEqual(a, b) == DeepEqual(b, a)
  {
  }

  /** Transitivity, so `deepEqual` is an equivalence relation. */
  lemma {:induction false} DeepEqualTransitive(a: Val, b: Val, c: Val)
    requires DeepEqual(a, b) && DeepEqual(b, c)
    ensures DeepEqual(a, c)
  {
  }

  /** The loop of the source: walk the keys of `a`, returning `false` at the
      first key missing from `b` or whose values differ, `true` when all keys
      pass. Each recursive call descends into a child of `a`, which is why the
      recursion terminates on finite values. */
  method DeepEqualLoop(a: Val, b: Val) returns (r: bool)
    ensures r == DeepEqual(a, b)
    ensures r <==> a == b
    decreases a
  {
    if !a.Obj? || !b.Obj? {
      return a == b;
    }
    if |a.fields| != |b.fields| {
      return false;
    }
    var pending := a.fields.Keys;
    while pending != {}
      invariant pending <= a.fields.Keys
      invariant forall k | k in a.fields.Keys - pending :: k in b.fields && DeepEqual(a.fields[k], b.fields[k])
      decreases pending
    {
      var k :| k in pending;
      if k !in b.fields {
        return false;
      }
      var same := DeepEqualLoop(a.fields[k], b.fields[k]);
      if !same {
        return false;
      }
      pending := pending - {k};
    }
    EqualCountCoveringMapsEqual(a.fields, b.fields);
    return true;
  }
}
